=== FILE: README.md ===
# ScholarTrack core, modelled in Dafny

ScholarTrack is a single-page scholarship finder. A student fills in an
academic profile. The application ranks the ten entries of its built-in
scholarship catalog for that profile. The ranking comes from a remote
language-model service when an API key is configured and the service
returns a non-empty list. Otherwise a rule-based fallback is used. The
student can bookmark entries, browse the catalog by study level, and watch
the bookmarked deadlines, which are grouped into past, urgent and upcoming.
The repository also ships a deadline tracker component
(src/components/DeadlineTracker.tsx) with a status badge, a WhatsApp
reminder link and a calendar event per deadline. App.tsx does not import or
mount it, so none of this reaches the running page; the model covers it as
a stand-alone component.

This project models the decision logic of that core as pure Dafny
functions over immutable datatypes:

| module | file | what it holds |
|---|---|---|
| `Seqs` | seqs.dfy | `Option`, the order-preserving `Filter` (`Array.prototype.filter`) and its laws |
| `Text` | text.dfy | digit test, infix, `join(', ')` and its inverse split |
| `Types` | types.dfy | study levels, fit tiers, profile (reduced), scholarship, match result |
| `Catalog` | catalog.dfy | the ten catalog entries as constants, and facts about them |
| `Days` | days.dfy | the day count `Math.ceil((deadline - now) / 86400000)` |
| `Matching` | matching.dfy | `runMatching`: the key check, the remote-or-fallback choice, the fallback ranking and its reason text |
| `Submission` | submission.dfy | the profile handed to matching when the profile form is submitted |
| `Bookmarks` | bookmarks.dfy | `toggleSave`, `savedScholarships`, `matchedScholarships`, the category filter |
| `Sorting` | sorting.dfy | the ascending sort by deadline that the deadline view applies |
| `DeadlineBoard` | deadline_board.dfy | the deadline view: past / urgent / upcoming grouping and ordering |
| `DeadlineTracker` | deadline_tracker.dfy | status badge, phone sanitising, reminder guard and link, calendar event span |
| `ScholarshipCard` | scholarship_card.dfy | the card's 30-day highlight and its level line |
| `Scenarios` | scenarios.dfy | end-to-end facts about the shipped catalog and the form |

Instants are epoch milliseconds (`int`). Turning a deadline string into an
instant, and reading the clock, are outside the model. The caller supplies
`deadlineMs: string -> int` and `nowMs`. The remote ranking call is
outside the model too. Its outcome is the parameter `ai: AiOutcome`: either
the call threw, or it returned a list. The service already turns its own
errors into an empty list (src/services/aiService.ts:71-75).

Two details of the code that the model follows:

- The application's deadline view and the unmounted tracker component
  disagree on day count 0. The view files it as past (`diffDays <= 0`), while the
  tracker labels it Urgent (`diffDays < 0` is Closed). The catalog
  deadlines are date-only strings, which parse to UTC midnight. So count 0
  is exactly the deadline's UTC day (not the user's local day): `TrackerAgreesWithBoardExceptDayZero`
  and `DeadlineDayIsUrgentHere` state this. Since App.tsx never mounts the
  tracker, only the view's reading reaches the page.
- On submit, the profile's study level is always `Undergraduate`, whatever
  the student selected before. The phone number is taken from this
  submission only. It is not carried over from the previous profile.
  Without a configured key, every submission is therefore ranked against
  the Undergraduate entries 1, 2, 4, 5 and 7 (`SubmittedProfileWithoutKey`).

## Model

| member | source | states |
|---|---|---|
| Seqs.Filter | src/App.tsx:72 | the result is no longer than the input, and every kept element satisfies the predicate |
| Seqs.FilterCount | src/App.tsx:72 | filtering keeps every satisfying element with its full multiplicity and drops every other element |
| Seqs.FilterMembership | src/App.tsx:109 | an element is in the filtered list iff it is in the input and satisfies the predicate |
| Seqs.FilterConcat | src/App.tsx:350-359 | filtering distributes over concatenation, so appending in input order gives the filtered order |
| Seqs.FilterSecondOfTwo | src/App.tsx:105 | of two elements, a filter rejecting the first and keeping the second returns the second alone |
| Seqs.FilterIdempotent | src/components/DeadlineTracker.tsx:35 | filtering twice with the same predicate equals filtering once |
| Seqs.FilterAllKept | src/App.tsx:105 | a list whose elements all satisfy the predicate comes back unchanged |
| Seqs.FilterNoneKept | src/App.tsx:72 | a list with no satisfying element filters to the empty list |
| Seqs.FilterCons | src/App.tsx:72 | filtering a list that starts with `x` keeps `x` at the front iff it satisfies the predicate |
| Seqs.FilterAt | src/App.tsx:72 | one step of the filter on the suffix starting at position k |
| Seqs.FilterKeep | src/App.tsx:72 | a kept element at position k heads the filtered suffix |
| Seqs.FilterSkip | src/App.tsx:72 | a dropped element at position k leaves the filtered suffix unchanged |
| Seqs.Min | src/App.tsx:73 | the clip of `slice(0, 5)`: the smaller of two numbers, equal to one of them |
| Text.InfixOfConcat | src/App.tsx:78 | a string spliced between two others occurs in the result at the splice position |
| Text.TemplateParts | src/App.tsx:78 | each interpolated value occurs in a seven-part template at its own position, after the fixed opening |
| Text.Join | src/components/ScholarshipCard.tsx:72 | no parts join to the empty string; otherwise the result starts with the first part and is as long as the parts plus one separator between each neighbouring pair |
| Text.SplitList | src/components/ScholarshipCard.tsx:72 | cutting a level line at its separators always gives at least one item |
| Text.SplitJoin | src/components/ScholarshipCard.tsx:72 | splitting a ", "-joined list of non-empty comma-free items gives the items back |
| Types.LevelName | src/types.ts:1 | the text of each study level is non-empty |
| Types.PriorityLabel | src/types.ts:101 | a tier's text is one of "High Fit", "Moderate Fit" and "Stretch" |
| Types.PriorityLabelInjective | src/types.ts:101 | two tiers have the same text iff they are the same tier |
| Types.ParseLevel | src/types.ts:1 | reading a level text back gives a level whose text is that text |
| Types.EligibleEntries | src/App.tsx:72 | `eligibleLevel.includes(level)`: every kept entry is in the catalog and open to the level, and every catalog entry open to the level is kept |
| Catalog.CatalogIdsInOrder | src/data.ts:5-161 | the catalog identifiers are "1" to "10" in catalog order |
| Catalog.CatalogIdsUnique | src/data.ts:5-161 | no two catalog entries share an identifier |
| Catalog.CatalogLevelsNonEmpty | src/data.ts:9-165 | every catalog entry is open to at least one level |
| Catalog.CatalogDeadlinesAreDates | src/data.ts:10-166 | every catalog deadline is a `YYYY-MM-DD` date with month 1..12 and day 1..31 |
| Catalog.FilterUndergraduatePattern | src/data.ts:9-165 | the filter over ten entries with the Undergraduate pattern of the catalog keeps positions 1, 2, 4, 5, 7, 9, 10 |
| Catalog.FilterMastersPattern | src/data.ts:9-165 | the filter over ten entries with the Masters pattern of the catalog keeps positions 3, 4, 6, 8, 9 |
| Catalog.NoSecondaryEntries | src/data.ts:9-165 | no catalog entry is open to Secondary students |
| Catalog.UndergraduateEntries | src/data.ts:9-165 | the entries open to Undergraduates are 1, 2, 4, 5, 7, 9, 10, in that order |
| Catalog.MastersEntries | src/data.ts:9-165 | the entries open to Masters students are 3, 4, 6, 8, 9, in that order |
| Catalog.UndergraduateIds | src/data.ts:5-165 | the identifiers of the Undergraduate entries are "1", "2", "4", "5", "7", "9", "10" |
| Catalog.MastersIds | src/data.ts:5-165 | the identifiers of the Masters entries are "3", "4", "6", "8", "9" |
| Days.DiffDays | src/App.tsx:353 | the day count is the least whole number of days covering the time left: `(d-1)*day < deadline-now <= d*day` |
| Days.DiffDaysUnique | src/App.tsx:353 | no other whole number satisfies that bracketing |
| Days.DiffDaysMonotonic | src/App.tsx:353 | a later deadline never has fewer days left |
| Days.DiffDaysSign | src/App.tsx:353-355 | the count is positive iff the deadline is ahead, and zero iff it passed less than a day ago or is now |
| Days.DiffDaysOfMidnight | src/components/DeadlineTracker.tsx:17-20 | for a deadline at UTC midnight of a day, the count is that day minus the index of the current day |
| Matching.FallbackPriority | src/App.tsx:77 | positions 0 and 1 are High Fit, 2 and 3 Moderate Fit, 4 and later Stretch, each iff |
| Matching.Subject | src/App.tsx:78 | the reason names the course of study if set, else the field of study if set, else "academic" |
| Matching.CgpaClause | src/App.tsx:78 | the CGPA clause is empty iff the CGPA is empty |
| Matching.Reason | src/App.tsx:78 | the reason opens with the fixed template, names the subject right after it, names the sponsor, and names the CGPA iff there is one |
| Matching.FallbackMatches | src/App.tsx:71-79 | at most five results, one per eligible entry, whose identifiers are those of the first eligible entries in catalog order |
| Matching.FallbackEntry | src/App.tsx:74-79 | result i is built from eligible entry i: its identifier, score `95 - 8i`, tier and reason |
| Matching.FallbackScores | src/App.tsx:73-77 | the fallback scores are 95, 87, 79, 71, 63 and the tiers High, High, Moderate, Moderate, Stretch, cut to the result count |
| Matching.PositionalScores | src/App.tsx:76-77 | any list of at most five results scored and tiered by position has those scores and tiers |
| Matching.FallbackScoresInRange | src/App.tsx:76 | fallback scores lie in 63..95 and strictly decrease along the list |
| Matching.FallbackRelevant | src/App.tsx:72-78 | every fallback result names a catalog entry open to the profile's level whose sponsor its reason names, and the reason names the subject |
| Matching.FallbackEmptyIff | src/App.tsx:71-73 | the fallback is empty iff no catalog entry is open to the profile's level |
| Matching.RunMatching | src/App.tsx:49-82 | a non-empty remote list from a configured key is shown unchanged; a missing, empty or placeholder key, a thrown call or an empty list gives the fallback |
| Matching.UnconfiguredIgnoresRemote | src/App.tsx:56-57 | without a configured key the remote outcome makes no difference and the fallback is shown |
| Matching.RunMatchingEmptyIff | src/App.tsx:60-80 | matching shows nothing iff the remote list is not used and no entry is open to the profile's level |
| Submission.OrElse | src/App.tsx:609 | `value \|\| fallback`: a present non-empty form value wins, otherwise the fallback |
| Submission.SubmitProfile | src/App.tsx:549-624 | the submitted profile is Undergraduate with undergraduate details; course and CGPA fall back to the previous profile, field and phone do not |
| Bookmarks.ToggleSave | src/App.tsx:92-99 | the toggled identifier flips membership and every other identifier keeps it |
| Bookmarks.ToggleTwice | src/App.tsx:92-99 | toggling the same identifier twice restores the bookmark set |
| Bookmarks.ToggleSize | src/App.tsx:92-99 | toggling changes the bookmark count by exactly one, down when it was bookmarked |
| Bookmarks.SavedScholarships | src/App.tsx:108-110 | an entry is in the saved list iff it is in the catalog and its identifier is bookmarked |
| Bookmarks.SavedAfterToggle | src/App.tsx:92-110 | after a toggle the entry with that identifier moves into or out of the saved list and no other entry changes |
| Bookmarks.FindById | src/App.tsx:103 | the lookup fails iff no entry carries the identifier, and a found entry is in the catalog and carries it |
| Bookmarks.FindByIdFirst | src/App.tsx:103 | the lookup returns the first entry carrying the identifier |
| Bookmarks.FindByIdUnique | src/App.tsx:103 | with unique identifiers the lookup of an entry's identifier returns that entry |
| Bookmarks.MatchedScholarships | src/App.tsx:101-106 | the displayed matches are exactly the resolvable matches in order, each paired with the entry the lookup finds |
| Bookmarks.MatchedPairsAgree | src/App.tsx:101-106 | every displayed pair shows a catalog entry whose identifier is the one its match names |
| Bookmarks.MatchedKeepsResolvable | src/App.tsx:105 | a match is displayed iff some catalog entry carries its identifier |
| Bookmarks.CategoryFilter | src/App.tsx:309-310 | All shows the catalog unchanged; a level shows exactly the entries open to it |
| Sorting.SortedCons | src/App.tsx:371 | a smallest element in front of a sorted list keeps it sorted |
| Sorting.HeadBoundsRest | src/App.tsx:371 | the head of a sorted list bounds every element drawn from its tail or a larger inserted key |
| Sorting.Insert | src/App.tsx:371 | inserting into a sorted list keeps it sorted and adds exactly that one element |
| Sorting.SortByKey | src/App.tsx:371 | the result is sorted by deadline and a permutation of the input |
| Sorting.SortSorted | src/App.tsx:371 | a list already sorted by deadline comes back unchanged |
| DeadlineBoard.BucketOf | src/App.tsx:355-357 | count 0 or less is past, 1 to 14 urgent, more than 14 upcoming, each iff |
| DeadlineBoard.Categorize | src/App.tsx:350-359 | each group is exactly the saved entries of that bucket, in saved order |
| DeadlineBoard.CategorizePartitions | src/App.tsx:350-359 | the three groups together are the saved list, counted with multiplicity |
| DeadlineBoard.CategorizeRanges | src/App.tsx:355-357 | every entry of a group has a day count in that group's range |
| DeadlineBoard.Board | src/App.tsx:371-421 | urgent and upcoming are shown sorted by deadline and hold the same entries as their groups; past is not reordered |
| DeadlineBoard.SortedDaysAscending | src/App.tsx:371-372 | along a list sorted by deadline the day counts never decrease |
| DeadlineBoard.BoardDaysAscending | src/App.tsx:371-422 | in both displayed groups the day counts never decrease, so the closest deadline comes first |
| DeadlineTracker.GetDeadlineStatus | src/components/DeadlineTracker.tsx:16-25 | Closed iff the count is negative, Urgent iff 0 to 14, Upcoming iff more than 14; the badge carries the count |
| DeadlineTracker.DaysLeftUnlessClosed | src/components/DeadlineTracker.tsx:90-94 | "days left" is shown iff the badge is not Closed |
| DeadlineTracker.TrackerAgreesWithBoardExceptDayZero | src/components/DeadlineTracker.tsx:22-24 | the badge agrees with the deadline view's grouping on every count except 0, which the view calls past and the badge Urgent |
| DeadlineTracker.DeadlineDayIsUrgentHere | src/components/DeadlineTracker.tsx:17-23 | on the deadline day of a midnight deadline the badge says Urgent while the deadline view files it as past |
| DeadlineTracker.SanitizePhone | src/components/DeadlineTracker.tsx:35 | the sanitised number is all digits, no longer than the input, and holds a character iff the input holds it and it is a digit |
| DeadlineTracker.SanitizeKeepsDigits | src/components/DeadlineTracker.tsx:35 | every digit survives sanitising as often as it occurs |
| DeadlineTracker.SanitizeConcat | src/components/DeadlineTracker.tsx:35 | the digits of a joined number are those of the first part followed by those of the second, so digits keep their input order |
| DeadlineTracker.SanitizeChar | src/components/DeadlineTracker.tsx:35 | a single character sanitises to itself iff it is a digit, and to nothing otherwise |
| DeadlineTracker.SanitizeIdempotent | src/components/DeadlineTracker.tsx:35 | sanitising twice is sanitising once |
| DeadlineTracker.SanitizeDigitsUnchanged | src/components/DeadlineTracker.tsx:35 | a number of digits only is left unchanged |
| DeadlineTracker.ReminderMessage | src/components/DeadlineTracker.tsx:33 | the reminder opens with the fixed words, then the scholarship's name; after the name, the sponsor in parentheses and " is " comes the formatted deadline date; it also names the sponsor and the application link |
| DeadlineTracker.WhatsAppReminder | src/components/DeadlineTracker.tsx:27-37 | no link iff there is no profile or the phone number is empty; otherwise the link is the `wa.me` prefix, exactly the number's digits, then `?text=` and the encoded reminder |
| DeadlineTracker.CalendarEventFor | src/components/DeadlineTracker.tsx:39-44 | the event starts at the deadline and ends one hour later, its title is exactly the prefix followed by the name, and its details name the sponsor and link |
| ScholarshipCard.IsUrgentWindow | src/components/ScholarshipCard.tsx:25-31 | the card is highlighted iff the deadline is ahead and at most thirty days away |
| ScholarshipCard.IsUrgentEdges | src/components/ScholarshipCard.tsx:30 | exactly thirty days is highlighted, a millisecond more is not, and now is not |
| ScholarshipCard.BoardUrgentIsCardUrgent | src/components/ScholarshipCard.tsx:30 | every deadline the deadline view calls urgent is highlighted on the card |
| ScholarshipCard.LevelLine | src/components/ScholarshipCard.tsx:72 | the level line is empty iff the entry lists no level |
| ScholarshipCard.ParseLevels | src/components/ScholarshipCard.tsx:72 | reading the level texts back gives one level per text |
| ScholarshipCard.ParseLevelNames | src/components/ScholarshipCard.tsx:72 | reading back the texts of a level list gives that list |
| ScholarshipCard.LevelLineRoundTrip | src/components/ScholarshipCard.tsx:72 | the level line loses nothing: split and read back it gives the levels in order |
| Scenarios.FallbackOfFirstFive | src/App.tsx:73-77 | with five or more eligible entries the fallback lists the first five and tiers the fifth a Stretch |
| Scenarios.FallbackForUndergraduate | src/App.tsx:71-79 | an Undergraduate profile gets entries 1, 2, 4, 5, 7 from the fallback |
| Scenarios.FallbackForMasters | src/App.tsx:71-79 | a Masters profile gets entries 3, 4, 6, 8, 9, the last a Stretch |
| Scenarios.FallbackForSecondary | src/App.tsx:71-79 | a Secondary profile gets nothing from the fallback |
| Scenarios.SubmittedSubject | src/App.tsx:609-620 | the reason for a submitted profile names the typed course, else the previous course, else "academic" |
| Scenarios.SubmittedProfileWithoutKey | src/App.tsx:619 | without a configured key every submitted profile is ranked entries 1, 2, 4, 5, 7 |
| Scenarios.FallbackFullyDisplayed | src/App.tsx:101-106 | with unique identifiers every fallback result is displayed, with the entry it was made from |
| Scenarios.CatalogFallbackFullyDisplayed | src/App.tsx:101-106 | every fallback result over the catalog is displayed |
| Scenarios.LookupsInNumbered | src/App.tsx:102 | in a list numbered "1" to "10", `find` misses "99" and finds "3" at the third entry |
| Scenarios.RemoteUnknownIdDropped | src/App.tsx:60-61 | a remote list naming an unknown identifier is shown as returned, and the unknown entry is then dropped from display |

## Left out

- Date parsing and formatting (`new Date(...)`, `toLocaleDateString`, `toISOString`): deadlines reach the model as epoch milliseconds through the `deadlineMs` parameter, and the formatted date as `deadlineText`.
- The clock: `nowMs` is a parameter. The deadline view reads the clock once per entry, and the model uses one instant for the whole grouping.
- Floating point: the day count is the exact ceiling of the rational quotient. This matches `Math.ceil` on doubles for the instants any real clock produces. Invalid dates (`NaN`) are not modelled.
- `encodeURIComponent`: a parameter `encode` of the reminder link. The calendar URL's text is not built; the event's fields are.
- `window.open`, `alert`, `localStorage`, React state and rendering, CSS classes and colours, and the progress bar width (`pctRemaining`).
- The remote ranking service and its prompt: its outcome is a parameter (`AiOutcome`). Its results are taken as given, so no bound is claimed on remote scores or identifiers.
- Profile fields that nothing in this core reads (names, addresses, O-level grades and so on) are not in `StudentProfile`. `SubmitProfile` sets only the fields the model has.
- The browse view's button text "Postgraduate" for the Masters level is presentation only.
- Sign-in, sign-out and the landing page.
- Sorting.SortByKey: stability (equal deadlines keep saved order) is not proved; the contract states sortedness and permutation only.
- DeadlineBoard.Board: for the same reason, the on-screen order of urgent or upcoming entries that share a deadline is not fixed by the contract. The ten catalog deadlines are all different, so this does not arise for the shipped catalog.
- Types.MatchResult: `matchPercentage` is an integer. The remote schema declares it a number (src/services/aiService.ts:58), so a remote list with fractional percentages is not representable; the fallback's scores are whole numbers.
- Days.DiffDays: the count is exact integer arithmetic, not IEEE 754 double division.

=== FILE: bookmarks.dfy ===
/** The list rules of the application shell: the bookmark set
    (`toggleSave`), the saved list, the lookup that turns match results
    into displayable pairs (`matchedScholarships`) and the category filter
    of the browse view. */
module Bookmarks {
  import opened Seqs
  import opened Types

  /** `toggleSave`: removes `id` when it is bookmarked, adds it otherwise. */
  function ToggleSave(saved: set<string>, id: string): (r: set<string>)
    ensures id in r <==> id !in saved
    ensures forall other :: other != id ==> (other in r <==> other in saved)
  {
    if id in saved then saved - {id} else saved + {id}
  }

  /** Toggling the same identifier twice restores the bookmark set. */
  lemma ToggleTwice(saved: set<string>, id: string)
    ensures ToggleSave(ToggleSave(saved, id), id) == saved
  {
  }

  /** Toggling changes the size of the set by exactly one. */
  lemma ToggleSize(saved: set<string>, id: string)
    ensures id in saved ==> |ToggleSave(saved, id)| == |saved| - 1
    ensures id !in saved ==> |ToggleSave(saved, id)| == |saved| + 1
  {
  }

  function SavedPredicate(saved: set<string>): Scholarship -> bool {
    (s: Scholarship) => s.id in saved
  }

  /** `savedScholarships`: the catalog entries whose identifier is
      bookmarked, in catalog order. */
  function SavedScholarships(catalog: seq<Scholarship>, saved: set<string>): (r: seq<Scholarship>)
    ensures forall s :: s in r <==> s in catalog && s.id in saved
    ensures forall i :: 0 <= i < |r| ==> r[i].id in saved
  {
    var r := Filter(catalog, SavedPredicate(saved));
    forall s ensures s in r <==> s in catalog && s.id in saved {
      FilterMembership(catalog, SavedPredicate(saved), s);
    }
    r
  }

  /** After toggling `id`, an entry with that identifier moves into or out
      of the saved list and every other entry stays where it was. */
  lemma SavedAfterToggle(catalog: seq<Scholarship>, saved: set<string>, id: string, s: Scholarship)
    requires s in catalog
    ensures s.id == id ==>
      (s in SavedScholarships(catalog, ToggleSave(saved, id)) <==> s !in SavedScholarships(catalog, saved))
    ensures s.id != id ==>
      (s in SavedScholarships(catalog, ToggleSave(saved, id)) <==> s in SavedScholarships(catalog, saved))
  {
  }

  /** `MOCK_SCHOLARSHIPS.find(s => s.id === id)`: the first entry with that identifier. */
  function FindById(catalog: seq<Scholarship>, id: string): (r: Option<Scholarship>)
    ensures r.None? <==> forall i :: 0 <= i < |catalog| ==> catalog[i].id != id
    ensures r.Some? ==> r.value in catalog && r.value.id == id
    decreases |catalog|
  {
    if |catalog| == 0 then None
    else if catalog[0].id == id then Some(catalog[0])
    else
      var r := FindById(catalog[1..], id);
      assert forall i :: 1 <= i < |catalog| ==> catalog[i] == catalog[1..][i - 1];
      r
  }

  /** The lookup returns the entry at the first position carrying the identifier. */
  lemma {:induction false} FindByIdFirst(catalog: seq<Scholarship>, id: string, i: nat)
    requires i < |catalog| && catalog[i].id == id
    requires forall j :: 0 <= j < i ==> catalog[j].id != id
    ensures FindById(catalog, id) == Some(catalog[i])
    decreases i
  {
    if i > 0 {
      FindByIdFirst(catalog[1..], id, i - 1);
    }
  }

  /** With unique identifiers the lookup finds the entry itself. */
  lemma FindByIdUnique(catalog: seq<Scholarship>, i: nat)
    requires UniqueIds(catalog)
    requires i < |catalog|
    ensures FindById(catalog, catalog[i].id) == Some(catalog[i])
  {
    FindByIdFirst(catalog, catalog[i].id, i);
  }

  /** A match result paired with the catalog entry it refers to. */
  datatype Matched = Matched(scholarship: Scholarship, matchInfo: MatchResult)

  /** The match refers to an identifier that occurs in the catalog. */
  function ResolvablePredicate(catalog: seq<Scholarship>): MatchResult -> bool {
    (m: MatchResult) => FindById(catalog, m.scholarshipId).Some?
  }

  /** The match results of a list of pairs, in order. */
  function MatchInfos(r: seq<Matched>): (infos: seq<MatchResult>)
    ensures |infos| == |r|
    ensures forall k :: 0 <= k < |r| ==> infos[k] == r[k].matchInfo
  {
    seq(|r|, k requires 0 <= k < |r| => r[k].matchInfo)
  }

  /** `matchedScholarships`: each match paired with the first catalog entry
      carrying its identifier; matches whose identifier is not in the
      catalog are dropped and the rest keep their order. */
  function MatchedScholarships(matches: seq<MatchResult>, catalog: seq<Scholarship>): (r: seq<Matched>)
    ensures MatchInfos(r) == Filter(matches, ResolvablePredicate(catalog))
    ensures forall k :: 0 <= k < |r| ==>
      FindById(catalog, r[k].matchInfo.scholarshipId) == Some(r[k].scholarship)
    decreases |matches|
  {
    if |matches| == 0 then []
    else
      var rest := MatchedScholarships(matches[1..], catalog);
      var head := match FindById(catalog, matches[0].scholarshipId)
                  case Some(s) => [Matched(s, matches[0])]
                  case None => [];
      assert MatchInfos(head + rest) == MatchInfos(head) + MatchInfos(rest);
      head + rest
  }

  /** Every displayed pair shows a catalog entry whose identifier is the
      one its match result names. */
  lemma MatchedPairsAgree(matches: seq<MatchResult>, catalog: seq<Scholarship>, k: nat)
    requires k < |MatchedScholarships(matches, catalog)|
    ensures var p := MatchedScholarships(matches, catalog)[k];
      p.scholarship in catalog && p.scholarship.id == p.matchInfo.scholarshipId
  {
  }

  /** A match is dropped exactly when no catalog entry carries its identifier. */
  lemma MatchedKeepsResolvable(matches: seq<MatchResult>, catalog: seq<Scholarship>, m: MatchResult)
    requires m in matches
    ensures m in MatchInfos(MatchedScholarships(matches, catalog)) <==>
            exists i :: 0 <= i < |catalog| && catalog[i].id == m.scholarshipId
  {
    FilterMembership(matches, ResolvablePredicate(catalog), m);
  }

  /** The browse view's category: everything, or one study level. */
  datatype Category = All | Level(level: StudyLevel)

  /** The browse view's filter: the whole catalog, or the entries open to
      the chosen level, in catalog order. */
  function CategoryFilter(catalog: seq<Scholarship>, category: Category): (r: seq<Scholarship>)
    ensures category.All? ==> r == catalog
    ensures forall s :: s in r <==> s in catalog && (category.All? || EligibleAt(s, category.level))
  {
    match category
    case All => catalog
    case Level(level) => EligibleEntries(catalog, level)
  }
}

=== FILE: catalog.dfy ===
/** The fixed catalog the program ships with (`MOCK_SCHOLARSHIPS`), and the
    facts about it that the fallback matcher's concrete behaviour rests on. */
module Catalog {
  import opened Seqs
  import opened Text
  import opened Types

  // Longer texts are written as concatenations of short pieces: the solver
  // handles a chain of short literals far more cheaply than one long one.
  const Entry1: Scholarship := Scholarship(
    "1",
    "MTN Foundation " + "Science & " + "Technology " + "Scholarship",
    "MTN Nigeria",
    "Nigeria",
    [Undergraduate],
    "2026-06-15",
    "Scholarship for " + "high-performing " + "students in STEM " + "fields across " +
      "Nigerian public " + "universities.",
    "The MTN Foundation " + "Science & " + "Technology " + "Scholarship (MTNF " +
      "STS) is an annual " + "award that seeks to " + "recognize and " + "reward " +
      "high-performing " + "students in " + "Nigerian public " + "tertiary " +
      "institutions. It is " + "designed to support " + "students in their " +
      "pursuit of academic " + "excellence in " + "science and " + "technology-related " +
      "courses.",
    ["Must be a Nigerian " + "citizen", "Must be in 300 " + "level of a public " +
      "university", "Minimum CGPA of 3.5 " + "on a 5.0 scale", "Studying a Science " +
      "or Technology " + "related course"],
    ["ID Card", "Admission Letter", "Academic Transcripts", "Passport Photograph"],
    "https://mtn.ng/foundation/scholarships/"
  )

  const Entry2: Scholarship := Scholarship(
    "2",
    "Shell Nigeria " + "University " + "Scholarship " + "Programme",
    "Shell Petroleum " + "Development Company " + "(SPDC)",
    "Nigeria",
    [Undergraduate],
    "2026-08-30",
    "Supporting talented " + "Nigerian students " + "in their first year " + "of undergraduate " +
      "study.",
    "The SPDC University " + "Scholarship Scheme " + "is a long-standing " + "programme that " +
      "provides financial " + "support to Nigerian " + "students in public " +
      "universities. The " + "scheme is divided " + "into two " + "categories: the " +
      "National Merit " + "Award (NM) and the " + "Areas of Operation " + "Merit Award (OM).",
    ["Be a citizen of " + "Nigeria", "Currently be in " + "their first year of " + "study in a " +
      "registered public " + "Nigerian University", "Have a minimum of " + "five credits in " +
      "SSCE/GCE O-Levels"],
    ["SSCE Result", "JAMB Result", "Admission Letter", "State of Origin " + "Certificate"],
    "https://www.shell.com.ng/sustainability/communities/scholarships.html"
  )

  const Entry3: Scholarship := Scholarship(
    "3",
    "Commonwealth Shared " + "Scholarships",
    "Commonwealth " + "Scholarship " + "Commission",
    "International",
    [Masters],
    "2026-12-12",
    "For candidates from " + "least developed and " + "lower middle income " + "Commonwealth " +
      "countries, for " + "full-time Master\U{2019}s " + "study.",
    "Commonwealth Shared " + "Scholarships are " + "for candidates from " +
      "least developed and " + "lower middle income " + "Commonwealth " + "countries, for " +
      "full-time Master\U{2019}s " + "study on selected " + "courses, jointly " +
      "supported by UK " + "universities.",
    ["Be a citizen of or " + "have been granted " + "refugee status by " + "an eligible " +
      "Commonwealth country", "Be permanently " + "resident in an " + "eligible " +
      "Commonwealth country", "Hold a first degree " + "of at least upper " +
      "second class (2:1) " + "standard"],
    ["Degree Certificate", "Academic Transcripts", "Two References", "Proof of Citizenship"],
    "https://cscuk.fcdo.gov.uk/scholarships/commonwealth-shared-scholarships/"
  )

  const Entry4: Scholarship := Scholarship(
    "4",
    "PTDF National " + "Scholarship Scheme",
    "Petroleum " + "Technology " + "Development Fund",
    "Nigeria",
    [Undergraduate, Masters],
    "2026-04-20",
    "Scholarships for " + "students in oil and " + "gas related fields " +
      "in Nigerian federal " + "universities.",
    "The PTDF is the " + "Federal Government " + "agency with the " + "mandate of " +
      "developing " + "indigenous human " + "capacity and " + "petroleum " +
      "technology to meet " + "the needs of the " + "oil and gas " + "industry.",
    ["Must be a Nigerian " + "citizen", "Possession of a " + "valid NIN", "Undergraduates must " +
      "be in 200 level", "Minimum of 2.1 for " + "Masters applicants"],
    ["NIN", "Local Government " + "Identification", "Admission Letter", "Academic Results"],
    "https://scholarship.ptdf.gov.ng/"
  )

  const Entry5: Scholarship := Scholarship(
    "5",
    "Jim Ovia Foundation " + "Leaders Scholarship",
    "Jim Ovia Foundation",
    "Nigeria",
    [Undergraduate],
    "2026-05-10",
    "Empowering young " + "Nigerians with " + "leadership " + "potential through " +
      "higher education.",
    "The Jim Ovia " + "Foundation Leaders " + "Scholarship (JOFLS) " + "is a partnership " +
      "between the Jim " + "Ovia Foundation and " + "the Africa America " +
      "Institute (AAI) to " + "provide university " + "scholarships to " + "high-achieving " +
      "African students.",
    ["Must be a Nigerian " + "citizen", "Demonstrated " + "financial need", "Strong academic " +
      "record", "Leadership potential"],
    ["Personal Statement", "Letters of " +
      "Recommendation", "Academic Records", "Proof of Financial " + "Need"],
    "https://www.jimoviafoundation.org/"
  )

  const Entry6: Scholarship := Scholarship(
    "6",
    "Chevening " + "Scholarships",
    "UK Government",
    "International",
    [Masters],
    "2026-11-05",
    "The UK government\U{2019}s " + "international " + "awards programme " +
      "aimed at developing " + "global leaders.",
    "Chevening " + "Scholarships are " + "awarded to " + "individuals from " +
      "all over the world " + "who can demonstrate " + "that they have the " + "commitment and " +
      "skills required to " + "create positive " + "change, and can " + "show how a UK " +
      "master\U{2019}s degree " + "will help them do " + "so.",
    ["Be a citizen of a " + "Chevening-eligible " + "country", "Return to your " + "country of " +
      "citizenship for a " + "minimum of two " + "years after your " +
      "award has ended", "Have at least two " + "years of work " + "experience"],
    ["Passport", "University " + "Transcripts", "Three UK University " +
      "Choices", "Two References"],
    "https://www.chevening.org/scholarship/nigeria/"
  )

  const Entry7: Scholarship := Scholarship(
    "7",
    "NLNG Undergraduate " + "Scholarship",
    "Nigeria LNG Limited",
    "Nigeria",
    [Undergraduate],
    "2026-07-25",
    "Awarded to " + "first-year " + "undergraduates in " + "Nigerian " + "universities.",
    "The NLNG " + "Undergraduate " + "Scholarship Scheme " + "is part of Nigeria " +
      "LNG Limited\U{2019}s " + "Corporate Social " + "Responsibility " + "(CSR) programme to " +
      "support education " + "in Nigeria.",
    ["Be a first-year " + "undergraduate " + "student in a " + "recognized Nigerian " +
      "University", "Have a minimum of " + "3.5 CGPA", "Not be a " + "beneficiary of any " +
      "other scholarship"],
    ["JAMB Result", "WAEC/NECO Result", "Admission Letter", "University ID Card"],
    "https://www.nlng.com/Our-CSR/Pages/Scholarships.aspx"
  )

  const Entry8: Scholarship := Scholarship(
    "8",
    "Agip Postgraduate " + "Scholarship",
    "Nigerian Agip " + "Exploration (NAE)",
    "International",
    [Masters],
    "2026-06-30",
    "For Nigerian " + "graduates wishing " + "to pursue a " + "Master\U{2019}s degree in " +
      "Nigeria or Overseas.",
    "Nigerian Agip " + "Exploration Limited " + "(NAE) invites " + "applications from " +
      "suitably qualified " + "Nigerian graduates " + "for its 2026/2027 " + "Post Graduate " +
      "Scholarship Award " + "Scheme.",
    ["Possess a minimum " + "of First Class or " + "Upper Second Class " +
      "Honours degree", "Must have completed " + "NYSC", "Not be above 28 " + "years of age"],
    ["NYSC Discharge " + "Certificate", "Degree Certificate", "Birth Certificate", "Passport"],
    "https://www.eni.com/en-NG/home.html"
  )

  const Entry9: Scholarship := Scholarship(
    "9",
    "Federal Government " + "Bilateral Education " + "Agreement (BEA)",
    "Federal Ministry of " + "Education",
    "International",
    [Undergraduate, Masters],
    "2026-03-15",
    "Scholarships for " + "study in countries " + "that have bilateral " + "education " +
      "agreements with " + "Nigeria.",
    "The Honorable " + "Minister of " + "Education invites " + "interested and " +
      "qualified Nigerians " + "to participate in " + "the 2026/2027 " + "Nomination " +
      "Interview for " + "Bilateral Education " + "Agreement (BEA) " + "Scholarship Awards " +
      "for Undergraduate " + "and Postgraduate " + "studies.",
    ["Undergraduate: Five " + "Distinctions (As & " + "Bs) in WAEC", "Postgraduate: " +
      "Minimum of 2.1 " + "degree", "Age limit: 18-20 " + "for UG, up to 35 " + "for PG"],
    ["WAEC Result", "Degree Certificate", "NIN", "Indigene Letter"],
    "https://education.gov.ng/fsb/"
  )

  const Entry10: Scholarship := Scholarship(
    "10",
    "SEPLAT " + "Undergraduate " + "Scholarship",
    "SEPLAT Petroleum " + "Development Company",
    "Nigeria",
    [Undergraduate],
    "2026-09-10",
    "Supporting students " + "in Federal and " + "State Universities " + "in Nigeria.",
    "The Seplat JV " + "Scholarship Scheme " + "is one of Seplat\U{2019}s " + "educational " +
      "corporate social " + "responsibility " + "programmes designed " + "to promote " +
      "educational " + "development and " + "human capacity " + "building.",
    ["Be in second year " + "of study or above", "Have at least 5 O\U{2019} " + "level credits " +
      "including English " + "and Mathematics", "Have a CGPA of 3.5 " + "and above"],
    ["University ID", "Admission Letter", "Current Transcript", "O-Level Result"],
    "https://seplatpetroleum.com/sustainability/social-investment/"
  )

  /** The ten entries in the order the program lists them. */
  const Scholarships: seq<Scholarship> :=
    [Entry1, Entry2, Entry3, Entry4, Entry5, Entry6, Entry7, Entry8, Entry9, Entry10]

  /** Value of an ASCII digit. */
  function DigitValue(c: char): (v: nat)
    requires IsDigit(c)
    ensures v <= 9
  {
    (c as int - '0' as int) as nat
  }

  /** A calendar date written `YYYY-MM-DD` with a month in 1..12 and a day in 1..31. */
  predicate IsIsoDate(s: string) {
    && |s| == 10
    && s[4] == '-' && s[7] == '-'
    && IsDigit(s[0]) && IsDigit(s[1]) && IsDigit(s[2]) && IsDigit(s[3])
    && IsDigit(s[5]) && IsDigit(s[6]) && IsDigit(s[8]) && IsDigit(s[9])
    && 1 <= 10 * DigitValue(s[5]) + DigitValue(s[6]) <= 12
    && 1 <= 10 * DigitValue(s[8]) + DigitValue(s[9]) <= 31
  }

  /** The identifiers are "1" to "10" in catalog order. */
  lemma CatalogIdsInOrder()
    ensures Ids(Scholarships) == ["1", "2", "3", "4", "5", "6", "7", "8", "9", "10"]
  {
  }

  /** Any list whose identifiers are "1" to "10" has no repeated identifier. */
  lemma UniqueWhenNumbered(xs: seq<Scholarship>)
    requires Ids(xs) == ["1", "2", "3", "4", "5", "6", "7", "8", "9", "10"]
    ensures UniqueIds(xs)
  {
    var ids := Ids(xs);
    forall i, j | 0 <= i < j < |xs|
      ensures xs[i].id != xs[j].id
    {
      assert xs[i].id == ids[i] && xs[j].id == ids[j];
    }
  }

  /** No two entries share an identifier. */
  lemma CatalogIdsUnique()
    ensures UniqueIds(Scholarships)
  {
    CatalogIdsInOrder();
    UniqueWhenNumbered(Scholarships);
  }

  /** Every entry is open to at least one level. */
  lemma CatalogLevelsNonEmpty()
    ensures forall i :: 0 <= i < |Scholarships| ==> |Scholarships[i].eligibleLevel| > 0
  {
  }

  /** The deadlines of entries 1 to 5 are `YYYY-MM-DD` dates. */
  lemma FirstDeadlinesAreDates()
    ensures IsIsoDate(Entry1.deadline) && IsIsoDate(Entry2.deadline) && IsIsoDate(Entry3.deadline)
    ensures IsIsoDate(Entry4.deadline) && IsIsoDate(Entry5.deadline)
  {
    assert Entry1.deadline == "2026-06-15" && IsIsoDate("2026-06-15");
    assert Entry2.deadline == "2026-08-30" && IsIsoDate("2026-08-30");
    assert Entry3.deadline == "2026-12-12" && IsIsoDate("2026-12-12");
    assert Entry4.deadline == "2026-04-20" && IsIsoDate("2026-04-20");
    assert Entry5.deadline == "2026-05-10" && IsIsoDate("2026-05-10");
  }

  /** The deadlines of entries 6 to 10 are `YYYY-MM-DD` dates. */
  lemma LastDeadlinesAreDates()
    ensures IsIsoDate(Entry6.deadline) && IsIsoDate(Entry7.deadline) && IsIsoDate(Entry8.deadline)
    ensures IsIsoDate(Entry9.deadline) && IsIsoDate(Entry10.deadline)
  {
    assert Entry6.deadline == "2026-11-05" && IsIsoDate("2026-11-05");
    assert Entry7.deadline == "2026-07-25" && IsIsoDate("2026-07-25");
    assert Entry8.deadline == "2026-06-30" && IsIsoDate("2026-06-30");
    assert Entry9.deadline == "2026-03-15" && IsIsoDate("2026-03-15");
    assert Entry10.deadline == "2026-09-10" && IsIsoDate("2026-09-10");
  }

  /** Every deadline is a `YYYY-MM-DD` date. */
  lemma CatalogDeadlinesAreDates()
    ensures forall i :: 0 <= i < |Scholarships| ==> IsIsoDate(Scholarships[i].deadline)
  {
    FirstDeadlinesAreDates();
    LastDeadlinesAreDates();
  }

  /** Filter over ten entries that keeps positions 1, 2, 4, 5, 7, 9 and 10. */
  lemma FilterUndergraduatePattern(xs: seq<Scholarship>, p: Scholarship -> bool)
    requires |xs| == 10
    requires p(xs[0])
    requires p(xs[1])
    requires !p(xs[2])
    requires p(xs[3])
    requires p(xs[4])
    requires !p(xs[5])
    requires p(xs[6])
    requires !p(xs[7])
    requires p(xs[8])
    requires p(xs[9])
    ensures Filter(xs, p) == [xs[0], xs[1], xs[3], xs[4], xs[6], xs[8], xs[9]]
  {
    assert xs[10..] == [];
    FilterKeep(xs, 9, p, []);
    FilterKeep(xs, 8, p, [xs[9]]);
    FilterSkip(xs, 7, p, [xs[8], xs[9]]);
    FilterKeep(xs, 6, p, [xs[8], xs[9]]);
    FilterSkip(xs, 5, p, [xs[6], xs[8], xs[9]]);
    FilterKeep(xs, 4, p, [xs[6], xs[8], xs[9]]);
    FilterKeep(xs, 3, p, [xs[4], xs[6], xs[8], xs[9]]);
    FilterSkip(xs, 2, p, [xs[3], xs[4], xs[6], xs[8], xs[9]]);
    FilterKeep(xs, 1, p, [xs[3], xs[4], xs[6], xs[8], xs[9]]);
    FilterKeep(xs, 0, p, [xs[1], xs[3], xs[4], xs[6], xs[8], xs[9]]);
    assert xs[0..] == xs;
  }

  /** Filter over ten entries that keeps positions 3, 4, 6, 8 and 9. */
  lemma FilterMastersPattern(xs: seq<Scholarship>, p: Scholarship -> bool)
    requires |xs| == 10
    requires !p(xs[0])
    requires !p(xs[1])
    requires p(xs[2])
    requires p(xs[3])
    requires !p(xs[4])
    requires p(xs[5])
    requires !p(xs[6])
    requires p(xs[7])
    requires p(xs[8])
    requires !p(xs[9])
    ensures Filter(xs, p) == [xs[2], xs[3], xs[5], xs[7], xs[8]]
  {
    assert xs[10..] == [];
    FilterSkip(xs, 9, p, []);
    FilterKeep(xs, 8, p, []);
    FilterKeep(xs, 7, p, [xs[8]]);
    FilterSkip(xs, 6, p, [xs[7], xs[8]]);
    FilterKeep(xs, 5, p, [xs[7], xs[8]]);
    FilterSkip(xs, 4, p, [xs[5], xs[7], xs[8]]);
    FilterKeep(xs, 3, p, [xs[5], xs[7], xs[8]]);
    FilterKeep(xs, 2, p, [xs[3], xs[5], xs[7], xs[8]]);
    FilterSkip(xs, 1, p, [xs[2], xs[3], xs[5], xs[7], xs[8]]);
    FilterSkip(xs, 0, p, [xs[2], xs[3], xs[5], xs[7], xs[8]]);
    assert xs[0..] == xs;
  }

  /** Which entries, taken on their own, are open to Undergraduates and to
      Masters students. */
  lemma EntryLevels()
    ensures EligibleAt(Entry1, Undergraduate) && !EligibleAt(Entry1, Masters)
    ensures EligibleAt(Entry2, Undergraduate) && !EligibleAt(Entry2, Masters)
    ensures !EligibleAt(Entry3, Undergraduate) && EligibleAt(Entry3, Masters)
    ensures EligibleAt(Entry4, Undergraduate) && EligibleAt(Entry4, Masters)
    ensures EligibleAt(Entry5, Undergraduate) && !EligibleAt(Entry5, Masters)
    ensures !EligibleAt(Entry6, Undergraduate) && EligibleAt(Entry6, Masters)
    ensures EligibleAt(Entry7, Undergraduate) && !EligibleAt(Entry7, Masters)
    ensures !EligibleAt(Entry8, Undergraduate) && EligibleAt(Entry8, Masters)
    ensures EligibleAt(Entry9, Undergraduate) && EligibleAt(Entry9, Masters)
    ensures EligibleAt(Entry10, Undergraduate) && !EligibleAt(Entry10, Masters)
  {
  }

  /** Each entry, taken on its own, is closed to secondary-school students. */
  lemma EntriesNotSecondary()
    ensures !EligibleAt(Entry1, Secondary) && !EligibleAt(Entry2, Secondary)
    ensures !EligibleAt(Entry3, Secondary) && !EligibleAt(Entry4, Secondary)
    ensures !EligibleAt(Entry5, Secondary) && !EligibleAt(Entry6, Secondary)
    ensures !EligibleAt(Entry7, Secondary) && !EligibleAt(Entry8, Secondary)
    ensures !EligibleAt(Entry9, Secondary) && !EligibleAt(Entry10, Secondary)
  {
  }

  /** No entry is open to secondary-school students. */
  lemma NoSecondaryEntries()
    ensures EligibleEntries(Scholarships, Secondary) == []
  {
    EntriesNotSecondary();
    FilterNoneKept(Scholarships, LevelPredicate(Secondary));
  }

  lemma UndergraduateEntries()
    ensures EligibleEntries(Scholarships, Undergraduate) == [Entry1, Entry2, Entry4, Entry5, Entry7, Entry9, Entry10]
  {
    EntryLevels();
    FilterUndergraduatePattern(Scholarships, LevelPredicate(Undergraduate));
  }

  lemma MastersEntries()
    ensures EligibleEntries(Scholarships, Masters) == [Entry3, Entry4, Entry6, Entry8, Entry9]
  {
    EntryLevels();
    FilterMastersPattern(Scholarships, LevelPredicate(Masters));
  }

  /** The identifiers of the entries open to Undergraduates, in catalog order. */
  lemma UndergraduateIds()
    ensures Ids(EligibleEntries(Scholarships, Undergraduate)) == ["1", "2", "4", "5", "7", "9", "10"]
  {
    UndergraduateEntries();
  }

  /** The identifiers of the entries open to Masters students, in catalog order. */
  lemma MastersIds()
    ensures Ids(EligibleEntries(Scholarships, Masters)) == ["3", "4", "6", "8", "9"]
  {
    MastersEntries();
  }
}

=== FILE: days.dfy ===
/** The day count every deadline view uses: the time left until the
    deadline, in milliseconds, divided by the length of a day and rounded
    up (`Math.ceil`). Instants are epoch milliseconds. */
module Days {

  const MsPerHour: int := 60 * 60 * 1000
  const MsPerDay: int := 1000 * 60 * 60 * 24

  /** `Math.ceil((deadlineMs - nowMs) / 86400000)`: the least whole number
      of days that covers the time left. */
  function DiffDays(deadlineMs: int, nowMs: int): (d: int)
    ensures (d - 1) * MsPerDay < deadlineMs - nowMs <= d * MsPerDay
  {
    -((nowMs - deadlineMs) / MsPerDay)
  }

  /** The bracketing in DiffDays' contract pins the count down: no other
      number of days satisfies it. */
  lemma DiffDaysUnique(deadlineMs: int, nowMs: int, d: int)
    requires (d - 1) * MsPerDay < deadlineMs - nowMs <= d * MsPerDay
    ensures d == DiffDays(deadlineMs, nowMs)
  {
  }

  /** A later deadline never has fewer days left. */
  lemma DiffDaysMonotonic(a: int, b: int, nowMs: int)
    requires a <= b
    ensures DiffDays(a, nowMs) <= DiffDays(b, nowMs)
  {
  }

  /** The count is positive exactly when the deadline is still ahead, and
      zero exactly when it lies in the past but less than a day ago (or is
      now). */
  lemma DiffDaysSign(deadlineMs: int, nowMs: int)
    ensures DiffDays(deadlineMs, nowMs) > 0 <==> deadlineMs > nowMs
    ensures DiffDays(deadlineMs, nowMs) == 0 <==> nowMs - MsPerDay < deadlineMs <= nowMs
  {
  }

  /** For a deadline at midnight (UTC) of day `day` since the epoch, the
      count is that day minus the index of the current day: zero on the
      deadline day itself, one on the day before. */
  lemma DiffDaysOfMidnight(day: int, nowMs: int)
    ensures DiffDays(day * MsPerDay, nowMs) == day - nowMs / MsPerDay
  {
    var q := nowMs / MsPerDay;
    var r := nowMs % MsPerDay;
    assert nowMs == q * MsPerDay + r && 0 <= r < MsPerDay;
    var a := day * MsPerDay - nowMs;
    assert a == (day - q) * MsPerDay - r;
    DiffDaysUnique(day * MsPerDay, nowMs, day - q);
  }
}

=== FILE: deadline_board.dfy ===
/** The deadline view of the application shell: the saved entries are
    split into past, urgent and upcoming deadlines by their day count, and
    the urgent and upcoming groups are shown earliest deadline first.
    Turning a deadline string into an instant is outside the model: the
    caller supplies it as `deadlineMs`, and `nowMs` is the current instant. */
module DeadlineBoard {
  import opened Seqs
  import opened Types
  import opened Days
  import opened Sorting

  /** Deadlines this many days away or closer (but not passed) are urgent. */
  const UrgentDays: int := 14

  datatype Bucket = Past | Urgent | Upcoming

  /** Day count 0 or less is past, 1 to 14 urgent, more than 14 upcoming. */
  function BucketOf(days: int): (b: Bucket)
    ensures b == Past <==> days <= 0
    ensures b == Urgent <==> 1 <= days <= UrgentDays
    ensures b == Upcoming <==> days > UrgentDays
  {
    if days <= 0 then Past else if days <= UrgentDays then Urgent else Upcoming
  }

  /** The day count of an entry's deadline. */
  function DaysLeft(s: Scholarship, deadlineMs: string -> int, nowMs: int): int {
    DiffDays(deadlineMs(s.deadline), nowMs)
  }

  function BucketPredicate(b: Bucket, deadlineMs: string -> int, nowMs: int): Scholarship -> bool {
    (s: Scholarship) => BucketOf(DaysLeft(s, deadlineMs, nowMs)) == b
  }

  /** The three groups, each in the order its entries were added. */
  datatype Categorized = Categorized(urgent: seq<Scholarship>, upcoming: seq<Scholarship>, past: seq<Scholarship>)

  /** One step of the `reduce`: append the entry to its group. */
  function Place(acc: Categorized, s: Scholarship, deadlineMs: string -> int, nowMs: int): Categorized {
    match BucketOf(DaysLeft(s, deadlineMs, nowMs))
    case Past => acc.(past := acc.past + [s])
    case Urgent => acc.(urgent := acc.urgent + [s])
    case Upcoming => acc.(upcoming := acc.upcoming + [s])
  }

  /** The `reduce` over the saved list, from the first entry to the last.
      Each group is exactly the saved entries of that group, in saved order. */
  function Categorize(saved: seq<Scholarship>, deadlineMs: string -> int, nowMs: int): (c: Categorized)
    ensures c.past == Filter(saved, BucketPredicate(Past, deadlineMs, nowMs))
    ensures c.urgent == Filter(saved, BucketPredicate(Urgent, deadlineMs, nowMs))
    ensures c.upcoming == Filter(saved, BucketPredicate(Upcoming, deadlineMs, nowMs))
    decreases |saved|
  {
    if saved == [] then Categorized([], [], [])
    else
      var init := saved[..|saved| - 1];
      var last := saved[|saved| - 1];
      assert saved == init + [last];
      FilterConcat(init, [last], BucketPredicate(Past, deadlineMs, nowMs));
      FilterConcat(init, [last], BucketPredicate(Urgent, deadlineMs, nowMs));
      FilterConcat(init, [last], BucketPredicate(Upcoming, deadlineMs, nowMs));
      Place(Categorize(init, deadlineMs, nowMs), last, deadlineMs, nowMs)
  }

  /** Every saved entry lands in exactly one group: together the groups are
      the saved list, counted with multiplicity. */
  lemma CategorizePartitions(saved: seq<Scholarship>, deadlineMs: string -> int, nowMs: int)
    ensures var c := Categorize(saved, deadlineMs, nowMs);
      multiset(c.past) + multiset(c.urgent) + multiset(c.upcoming) == multiset(saved)
  {
    var c := Categorize(saved, deadlineMs, nowMs);
    forall x ensures (multiset(c.past) + multiset(c.urgent) + multiset(c.upcoming))[x] == multiset(saved)[x] {
      FilterCount(saved, BucketPredicate(Past, deadlineMs, nowMs), x);
      FilterCount(saved, BucketPredicate(Urgent, deadlineMs, nowMs), x);
      FilterCount(saved, BucketPredicate(Upcoming, deadlineMs, nowMs), x);
    }
  }

  /** Each group holds only entries whose day count belongs to it. */
  lemma CategorizeRanges(saved: seq<Scholarship>, deadlineMs: string -> int, nowMs: int)
    ensures var c := Categorize(saved, deadlineMs, nowMs);
      && (forall i :: 0 <= i < |c.past| ==> DaysLeft(c.past[i], deadlineMs, nowMs) <= 0)
      && (forall i :: 0 <= i < |c.urgent| ==> 1 <= DaysLeft(c.urgent[i], deadlineMs, nowMs) <= UrgentDays)
      && (forall i :: 0 <= i < |c.upcoming| ==> DaysLeft(c.upcoming[i], deadlineMs, nowMs) > UrgentDays)
  {
    var c := Categorize(saved, deadlineMs, nowMs);
    assert forall i :: 0 <= i < |c.past| ==> BucketPredicate(Past, deadlineMs, nowMs)(c.past[i]);
    assert forall i :: 0 <= i < |c.urgent| ==> BucketPredicate(Urgent, deadlineMs, nowMs)(c.urgent[i]);
    assert forall i :: 0 <= i < |c.upcoming| ==> BucketPredicate(Upcoming, deadlineMs, nowMs)(c.upcoming[i]);
  }

  /** The instant of an entry's deadline, the sort key of the display. */
  function DeadlineKey(deadlineMs: string -> int): Scholarship -> int {
    (s: Scholarship) => deadlineMs(s.deadline)
  }

  /** What the deadline view shows: the urgent and upcoming groups sorted
      by deadline, earliest first, and the past group in saved order. */
  function Board(saved: seq<Scholarship>, deadlineMs: string -> int, nowMs: int): (b: Categorized)
    ensures SortedBy(b.urgent, DeadlineKey(deadlineMs))
    ensures SortedBy(b.upcoming, DeadlineKey(deadlineMs))
    ensures multiset(b.urgent) == multiset(Categorize(saved, deadlineMs, nowMs).urgent)
    ensures multiset(b.upcoming) == multiset(Categorize(saved, deadlineMs, nowMs).upcoming)
    ensures b.past == Categorize(saved, deadlineMs, nowMs).past
  {
    var c := Categorize(saved, deadlineMs, nowMs);
    Categorized(SortByKey(c.urgent, DeadlineKey(deadlineMs)), SortByKey(c.upcoming, DeadlineKey(deadlineMs)), c.past)
  }

  /** Along a sequence sorted by deadline the day counts never decrease. */
  lemma SortedDaysAscending(u: seq<Scholarship>, deadlineMs: string -> int, nowMs: int)
    requires SortedBy(u, DeadlineKey(deadlineMs))
    ensures forall i, j :: 0 <= i <= j < |u| ==>
      DaysLeft(u[i], deadlineMs, nowMs) <= DaysLeft(u[j], deadlineMs, nowMs)
  {
    forall i, j | 0 <= i <= j < |u|
      ensures DaysLeft(u[i], deadlineMs, nowMs) <= DaysLeft(u[j], deadlineMs, nowMs)
    {
      assert DeadlineKey(deadlineMs)(u[i]) <= DeadlineKey(deadlineMs)(u[j]);
      DiffDaysMonotonic(deadlineMs(u[i].deadline), deadlineMs(u[j].deadline), nowMs);
    }
  }

  /** Along both displayed groups the day counts never decrease, so the
      closest deadline is shown first. */
  lemma BoardDaysAscending(saved: seq<Scholarship>, deadlineMs: string -> int, nowMs: int)
    ensures var b := Board(saved, deadlineMs, nowMs);
      && (forall i, j :: 0 <= i <= j < |b.urgent| ==>
            DaysLeft(b.urgent[i], deadlineMs, nowMs) <= DaysLeft(b.urgent[j], deadlineMs, nowMs))
      && (forall i, j :: 0 <= i <= j < |b.upcoming| ==>
            DaysLeft(b.upcoming[i], deadlineMs, nowMs) <= DaysLeft(b.upcoming[j], deadlineMs, nowMs))
  {
    var b := Board(saved, deadlineMs, nowMs);
    SortedDaysAscending(b.urgent, deadlineMs, nowMs);
    SortedDaysAscending(b.upcoming, deadlineMs, nowMs);
  }
}

=== FILE: deadline_tracker.dfy ===
/** The deadline tracker component: a status badge per saved entry, the
    WhatsApp reminder link and the calendar event. Date formatting,
    `encodeURIComponent` and opening windows are outside the model; the
    encoder and the formatted date are parameters. */
module DeadlineTracker {
  import opened Seqs
  import opened Text
  import opened Types
  import opened Days
  import DeadlineBoard

  datatype StatusLabel = Closed | Urgent | Upcoming

  /** The badge: its kind (the label text) and the day count it was computed from. */
  datatype DeadlineStatus = DeadlineStatus(kind: StatusLabel, days: int)

  /** `getDeadlineStatus`: a negative day count is closed, 0 to 14 urgent,
      more than 14 upcoming. */
  function GetDeadlineStatus(deadlineMs: int, nowMs: int): (st: DeadlineStatus)
    ensures st.days == DiffDays(deadlineMs, nowMs)
    ensures st.kind == Closed <==> st.days < 0
    ensures st.kind == Urgent <==> 0 <= st.days <= 14
    ensures st.kind == Upcoming <==> st.days > 14
  {
    var days := DiffDays(deadlineMs, nowMs);
    if days < 0 then DeadlineStatus(Closed, days)
    else if days <= 14 then DeadlineStatus(Urgent, days)
    else DeadlineStatus(Upcoming, days)
  }

  /** The badge is followed by "N days left" when the count is not negative. */
  predicate ShowsDaysLeft(st: DeadlineStatus) {
    st.days >= 0
  }

  /** "days left" is shown exactly for badges that are not closed. */
  lemma DaysLeftUnlessClosed(deadlineMs: int, nowMs: int)
    ensures ShowsDaysLeft(GetDeadlineStatus(deadlineMs, nowMs)) <==>
            GetDeadlineStatus(deadlineMs, nowMs).kind != Closed
  {
  }

  /** The tracker and the application's deadline view disagree on exactly
      one day count, 0: the view files it as past, the tracker calls it
      urgent. Elsewhere past matches closed, urgent matches urgent and
      upcoming matches upcoming. */
  lemma TrackerAgreesWithBoardExceptDayZero(deadlineMs: int, nowMs: int)
    ensures var st := GetDeadlineStatus(deadlineMs, nowMs);
      var b := DeadlineBoard.BucketOf(st.days);
      && (st.days == 0 ==> b == DeadlineBoard.Past && st.kind == Urgent)
      && (st.days != 0 ==>
            && (b == DeadlineBoard.Past <==> st.kind == Closed)
            && (b == DeadlineBoard.Urgent <==> st.kind == Urgent)
            && (b == DeadlineBoard.Upcoming <==> st.kind == Upcoming))
  {
  }

  /** For a deadline at midnight (UTC) the day count is 0 exactly on the
      deadline day, so that is the day on which the two views disagree. */
  lemma DeadlineDayIsUrgentHere(day: int, nowMs: int)
    requires nowMs / MsPerDay == day
    ensures GetDeadlineStatus(day * MsPerDay, nowMs).kind == Urgent
    ensures DeadlineBoard.BucketOf(DiffDays(day * MsPerDay, nowMs)) == DeadlineBoard.Past
  {
    DiffDaysOfMidnight(day, nowMs);
  }

  function DigitPredicate(): char -> bool {
    (c: char) => IsDigit(c)
  }

  /** `phoneNumber.replace(/\D/g, '')`: the digits of the number, in order. */
  function SanitizePhone(phone: string): (r: string)
    ensures AllDigits(r)
    ensures |r| <= |phone|
    ensures forall c :: c in r <==> c in phone && IsDigit(c)
  {
    var r := Filter(phone, DigitPredicate());
    forall c ensures c in r <==> c in phone && IsDigit(c) {
      FilterMembership(phone, DigitPredicate(), c);
    }
    r
  }

  /** Every digit of the input survives, as many times as it occurs. */
  lemma SanitizeKeepsDigits(phone: string, c: char)
    requires IsDigit(c)
    ensures multiset(SanitizePhone(phone))[c] == multiset(phone)[c]
  {
    FilterCount(phone, DigitPredicate(), c);
  }

  /** Sanitising twice gives the same result as sanitising once. */
  lemma SanitizeIdempotent(phone: string)
    ensures SanitizePhone(SanitizePhone(phone)) == SanitizePhone(phone)
  {
    FilterIdempotent(phone, DigitPredicate());
  }

  /** Sanitising works piece by piece: the digits of a joined number are
      the digits of the first part followed by those of the second, so the
      digits keep their input order. */
  lemma SanitizeConcat(a: string, b: string)
    ensures SanitizePhone(a + b) == SanitizePhone(a) + SanitizePhone(b)
  {
    FilterConcat(a, b, DigitPredicate());
  }

  /** A single character sanitises to itself if it is a digit and to
      nothing otherwise; with SanitizeConcat this fixes the result for
      every input. */
  lemma SanitizeChar(c: char)
    ensures SanitizePhone([c]) == if IsDigit(c) then [c] else []
  {
    FilterCons(c, [], DigitPredicate());
    assert [c] + [] == [c];
  }

  /** A number that is all digits is left as it is. */
  lemma SanitizeDigitsUnchanged(phone: string)
    requires AllDigits(phone)
    ensures SanitizePhone(phone) == phone
  {
    FilterAllKept(phone, DigitPredicate());
  }

  const ReminderOpening: string := "Reminder: The deadline for the "

  /** The reminder text; `deadlineText` is the formatted deadline date. It
      opens with fixed words followed by the scholarship's name, and names
      the sponsor and the application link. */
  function ReminderMessage(s: Scholarship, deadlineText: string): (m: string)
    ensures |ReminderOpening| <= |m| && m[..|ReminderOpening|] == ReminderOpening
    ensures InfixAt(s.name, m, |ReminderOpening|)
    ensures InfixAt(deadlineText, m, |ReminderOpening| + |s.name| + |" ("| + |s.sponsor| + |") is "|)
    ensures IsInfix(s.name, m)
    ensures IsInfix(s.sponsor, m)
    ensures IsInfix(s.applicationLink, m)
  {
    var a := ReminderOpening;
    var b := " (";
    var c := ") is " + deadlineText + ". Don't forget to apply! Link: ";
    var m := a + s.name + b + s.sponsor + c + s.applicationLink;
    TemplateParts(a, s.name, b, s.sponsor, c, s.applicationLink, "");
    assert m + "" == m;
    var before := a + s.name + b + s.sponsor + ") is ";
    var after := ". Don't forget to apply! Link: " + s.applicationLink;
    assert m == before + deadlineText + after;
    InfixOfConcat(before, deadlineText, after);
    m
  }

  const WhatsAppPrefix: string := "https://wa.me/"
  const TextQuery: string := "?text="

  /** `handleWhatsAppReminder`: no link without a profile or with an empty
      phone number; otherwise the link addresses the digits of the number
      and carries the encoded reminder text. */
  function WhatsAppReminder(profile: Option<StudentProfile>, s: Scholarship, deadlineText: string,
                            encode: string -> string): (url: Option<string>)
    ensures url.None? <==> profile.None? || profile.value.phoneNumber == ""
    ensures url.Some? ==>
      var digits := SanitizePhone(profile.value.phoneNumber);
      && |WhatsAppPrefix| + |digits| <= |url.value|
      && url.value[..|WhatsAppPrefix|] == WhatsAppPrefix
      && url.value[|WhatsAppPrefix|..|WhatsAppPrefix| + |digits|] == digits
      && AllDigits(url.value[|WhatsAppPrefix|..|WhatsAppPrefix| + |digits|])
      && InfixAt(TextQuery, url.value, |WhatsAppPrefix| + |digits|)
      && url.value[|WhatsAppPrefix| + |digits| + |TextQuery|..] ==
         encode(ReminderMessage(s, deadlineText))
  {
    match profile
    case None => None
    case Some(p) =>
      if p.phoneNumber == "" then None
      else
        var digits := SanitizePhone(p.phoneNumber);
        var url := WhatsAppPrefix + digits + TextQuery + encode(ReminderMessage(s, deadlineText));
        assert url[..|WhatsAppPrefix|] == WhatsAppPrefix;
        assert url[|WhatsAppPrefix|..|WhatsAppPrefix| + |digits|] == digits;
        assert url[|WhatsAppPrefix| + |digits|..|WhatsAppPrefix| + |digits| + |TextQuery|] == TextQuery;
        assert url[|WhatsAppPrefix| + |digits| + |TextQuery|..] == encode(ReminderMessage(s, deadlineText));
        Some(url)
  }

  /** A calendar event for a deadline: starts at the deadline instant and
      lasts one hour. */
  datatype CalendarEvent = CalendarEvent(title: string, startMs: int, endMs: int, details: string)

  const EventTitlePrefix: string := "Scholarship Deadline: "

  /** `handleAddToCalendar`, before the instants are formatted. */
  function CalendarEventFor(s: Scholarship, deadlineMs: int): (e: CalendarEvent)
    ensures e.startMs == deadlineMs
    ensures e.endMs - e.startMs == MsPerHour
    ensures |EventTitlePrefix| <= |e.title| && e.title[..|EventTitlePrefix|] == EventTitlePrefix
    ensures InfixAt(s.name, e.title, |EventTitlePrefix|)
    ensures |e.title| == |EventTitlePrefix| + |s.name|
    ensures IsInfix(s.sponsor, e.details) && IsInfix(s.applicationLink, e.details)
  {
    var title := EventTitlePrefix + s.name;
    var details := "Sponsor: " + s.sponsor + "\n\nApply here: " + s.applicationLink;
    assert title == EventTitlePrefix + s.name + "";
    InfixOfConcat(EventTitlePrefix, s.name, "");
    assert details == "Sponsor: " + s.sponsor + ("\n\nApply here: " + s.applicationLink);
    InfixOfConcat("Sponsor: ", s.sponsor, "\n\nApply here: " + s.applicationLink);
    assert details == "Sponsor: " + s.sponsor + "\n\nApply here: " + s.applicationLink + "";
    InfixOfConcat("Sponsor: " + s.sponsor + "\n\nApply here: ", s.applicationLink, "");
    CalendarEvent(title, deadlineMs, deadlineMs + 60 * 60 * 1000, details)
  }
}

=== FILE: matching.dfy ===
/** Scholarship matching (`runMatching`): the rule-based fallback ranker and
    the policy that decides whether the remote ranking or the fallback is
    shown. The remote call itself is outside the model; its outcome is an
    input. */
module Matching {
  import opened Seqs
  import opened Text
  import opened Types

  /** The fallback returns at most this many results. */
  const MaxFallbackMatches: nat := 5

  /** The value the key is set to when nobody has configured it. */
  const PlaceholderKey: string := "YOUR_API_KEY_HERE"

  /** Score of the fallback result at position `i`: 95, 87, 79, 71, 63. */
  function FallbackScore(i: nat): int {
    95 - 8 * i
  }

  /** Tier of the fallback result at position `i`; the tier depends on the
      position, not on the score. */
  function FallbackPriority(i: nat): (p: Priority)
    ensures p == HighFit <==> i < 2
    ensures p == ModerateFit <==> 2 <= i < 4
    ensures p == Stretch <==> 4 <= i
  {
    if i < 2 then HighFit else if i < 4 then ModerateFit else Stretch
  }

  /** The course of study in the undergraduate section, empty when the section is missing. */
  function CourseOf(profile: StudentProfile): string {
    match profile.undergraduateDetails
    case Some(u) => u.courseOfStudy
    case None => ""
  }

  /** The current CGPA in the undergraduate section, empty when the section is missing. */
  function CgpaOf(profile: StudentProfile): string {
    match profile.undergraduateDetails
    case Some(u) => u.currentCgpa
    case None => ""
  }

  /** The subject the reason names: the course of study if set, else the
      field of study if set, else the word "academic". */
  function Subject(profile: StudentProfile): (r: string)
    ensures r != ""
    ensures CourseOf(profile) != "" ==> r == CourseOf(profile)
    ensures CourseOf(profile) == "" && profile.fieldOfStudy != "" ==> r == profile.fieldOfStudy
    ensures CourseOf(profile) == "" && profile.fieldOfStudy == "" ==> r == "academic"
  {
    if CourseOf(profile) != "" then CourseOf(profile)
    else if profile.fieldOfStudy != "" then profile.fieldOfStudy
    else "academic"
  }

  const ReasonOpening: string := "Based on your "
  const ReasonBackground: string := " background"
  const ReasonSponsor: string := ", this scholarship from "
  const ReasonClosing: string := " is a strong match for your profile."

  /** The optional CGPA clause of the reason. */
  function CgpaClause(profile: StudentProfile): (c: string)
    ensures CgpaOf(profile) == "" <==> c == ""
  {
    if CgpaOf(profile) != "" then " and " + CgpaOf(profile) + " CGPA" else ""
  }

  /** The templated explanation attached to a fallback result. It names the
      subject right after the opening words, mentions the CGPA only when one
      is given, and names the sponsor. */
  function Reason(profile: StudentProfile, sponsor: string): (r: string)
    ensures |ReasonOpening| <= |r| && r[..|ReasonOpening|] == ReasonOpening
    ensures InfixAt(Subject(profile), r, |ReasonOpening|)
    ensures IsInfix(Subject(profile), r)
    ensures IsInfix(sponsor, r)
    ensures CgpaOf(profile) != "" ==> IsInfix(" and " + CgpaOf(profile) + " CGPA", r)
    ensures CgpaOf(profile) == "" ==>
      |r| == |ReasonOpening| + |Subject(profile)| + |ReasonBackground| + |ReasonSponsor| + |sponsor| + |ReasonClosing|
  {
    var r := ReasonOpening + Subject(profile) + ReasonBackground + CgpaClause(profile)
             + ReasonSponsor + sponsor + ReasonClosing;
    TemplateParts(ReasonOpening, Subject(profile), ReasonBackground, CgpaClause(profile),
                  ReasonSponsor, sponsor, ReasonClosing);
    r
  }

  /** The rule-based ranking: the first five catalog entries open to the
      profile's level, in catalog order, scored and tiered by position. */
  function FallbackMatches(profile: StudentProfile, catalog: seq<Scholarship>): (r: seq<MatchResult>)
    ensures |r| == Min(MaxFallbackMatches, |EligibleEntries(catalog, profile.levelOfStudy)|)
    ensures MatchIds(r) == Ids(EligibleEntries(catalog, profile.levelOfStudy)[..|r|])
  {
    var eligible := EligibleEntries(catalog, profile.levelOfStudy);
    var top := eligible[..Min(MaxFallbackMatches, |eligible|)];
    seq(|top|, i requires 0 <= i < |top| =>
      MatchResult(top[i].id, FallbackScore(i), Reason(profile, top[i].sponsor), FallbackPriority(i)))
  }

  /** The entry the fallback result at position `i` was made from. */
  lemma FallbackEntry(profile: StudentProfile, catalog: seq<Scholarship>, i: nat)
    requires i < |FallbackMatches(profile, catalog)|
    ensures var e := EligibleEntries(catalog, profile.levelOfStudy)[i];
      && e in catalog
      && EligibleAt(e, profile.levelOfStudy)
      && FallbackMatches(profile, catalog)[i] ==
           MatchResult(e.id, FallbackScore(i), Reason(profile, e.sponsor), FallbackPriority(i))
  {
  }

  /** The scores of a list of results, in order. */
  function Scores(r: seq<MatchResult>): (scores: seq<int>)
    ensures |scores| == |r|
    ensures forall i :: 0 <= i < |r| ==> scores[i] == r[i].matchPercentage
  {
    seq(|r|, i requires 0 <= i < |r| => r[i].matchPercentage)
  }

  /** The tiers of a list of results, in order. */
  function Priorities(r: seq<MatchResult>): (tiers: seq<Priority>)
    ensures |tiers| == |r|
    ensures forall i :: 0 <= i < |r| ==> tiers[i] == r[i].priority
  {
    seq(|r|, i requires 0 <= i < |r| => r[i].priority)
  }

  /** Scores and tiers of the fallback: at most five results, scored
      95, 87, 79, 71, 63 and tiered High Fit, High Fit, Moderate Fit,
      Moderate Fit, Stretch, cut to the number of results. */
  lemma FallbackScores(profile: StudentProfile, catalog: seq<Scholarship>)
    ensures var r := FallbackMatches(profile, catalog);
      && |r| <= 5
      && Scores(r) == [95, 87, 79, 71, 63][..|r|]
      && Priorities(r) == [HighFit, HighFit, ModerateFit, ModerateFit, Stretch][..|r|]
  {
    var r := FallbackMatches(profile, catalog);
    forall i | 0 <= i < |r|
      ensures r[i].matchPercentage == FallbackScore(i) && r[i].priority == FallbackPriority(i)
    {
      FallbackEntry(profile, catalog, i);
    }
    PositionalScores(r);
  }

  /** Five or fewer results scored and tiered by position carry the listed
      scores and tiers. */
  lemma PositionalScores(r: seq<MatchResult>)
    requires |r| <= 5
    requires forall i :: 0 <= i < |r| ==> r[i].matchPercentage == FallbackScore(i) && r[i].priority == FallbackPriority(i)
    ensures Scores(r) == [95, 87, 79, 71, 63][..|r|]
    ensures Priorities(r) == [HighFit, HighFit, ModerateFit, ModerateFit, Stretch][..|r|]
  {
    var scores := [95, 87, 79, 71, 63][..|r|];
    var tiers := [HighFit, HighFit, ModerateFit, ModerateFit, Stretch][..|r|];
    forall i | 0 <= i < |r| ensures Scores(r)[i] == scores[i] && Priorities(r)[i] == tiers[i] {
      assert i == 0 || i == 1 || i == 2 || i == 3 || i == 4;
    }
  }

  /** The fallback scores are strictly decreasing and lie within 0..100. */
  lemma FallbackScoresInRange(profile: StudentProfile, catalog: seq<Scholarship>)
    ensures var r := FallbackMatches(profile, catalog);
      && (forall i :: 0 <= i < |r| ==> 63 <= r[i].matchPercentage <= 95)
      && (forall i, j :: 0 <= i < j < |r| ==> r[i].matchPercentage > r[j].matchPercentage)
  {
    var r := FallbackMatches(profile, catalog);
    forall i | 0 <= i < |r|
      ensures r[i].matchPercentage == FallbackScore(i)
    {
      FallbackEntry(profile, catalog, i);
    }
  }

  /** Every fallback result refers to a catalog entry open to the profile's
      level (an exact level match), and its reason names the profile's
      subject and that entry's sponsor. */
  lemma FallbackRelevant(profile: StudentProfile, catalog: seq<Scholarship>, i: nat)
    requires i < |FallbackMatches(profile, catalog)|
    ensures exists e :: e in catalog && e.id == FallbackMatches(profile, catalog)[i].scholarshipId
                        && EligibleAt(e, profile.levelOfStudy)
                        && IsInfix(e.sponsor, FallbackMatches(profile, catalog)[i].reason)
    ensures IsInfix(Subject(profile), FallbackMatches(profile, catalog)[i].reason)
  {
    FallbackEntry(profile, catalog, i);
  }

  /** The fallback is empty exactly when no catalog entry is open to the
      profile's level. */
  lemma FallbackEmptyIff(profile: StudentProfile, catalog: seq<Scholarship>)
    ensures FallbackMatches(profile, catalog) == [] <==>
            forall s :: s in catalog ==> !EligibleAt(s, profile.levelOfStudy)
  {
    var eligible := EligibleEntries(catalog, profile.levelOfStudy);
    if eligible != [] {
      assert eligible[0] in catalog;
    }
  }

  /** How the remote ranking call ended: it threw, or it returned a list
      (the service already turns its own failures into an empty list). */
  datatype AiOutcome = Threw | Returned(matches: seq<MatchResult>)

  /** The key is set, non-empty and not the placeholder. */
  predicate KeyConfigured(key: Option<string>) {
    key.Some? && key.value != "" && key.value != PlaceholderKey
  }

  /** The remote ranking is shown only when a key is configured and the call
      returned a non-empty list. */
  predicate UsesRemote(key: Option<string>, ai: AiOutcome) {
    KeyConfigured(key) && ai.Returned? && |ai.matches| > 0
  }

  /** `runMatching`: a non-empty remote list, passed through unchanged, or
      else the fallback. When the key is not configured the outcome is never
      looked at (the call is not made). */
  function RunMatching(key: Option<string>, ai: AiOutcome, profile: StudentProfile, catalog: seq<Scholarship>)
    : (r: seq<MatchResult>)
    ensures UsesRemote(key, ai) ==> r == ai.matches
    ensures !UsesRemote(key, ai) ==> r == FallbackMatches(profile, catalog)
  {
    if KeyConfigured(key) && ai.Returned? && |ai.matches| > 0 then ai.matches
    else FallbackMatches(profile, catalog)
  }

  /** Without a usable key the remote outcome makes no difference. */
  lemma UnconfiguredIgnoresRemote(key: Option<string>, a: AiOutcome, b: AiOutcome,
                                  profile: StudentProfile, catalog: seq<Scholarship>)
    requires !KeyConfigured(key)
    ensures RunMatching(key, a, profile, catalog) == RunMatching(key, b, profile, catalog)
    ensures RunMatching(key, a, profile, catalog) == FallbackMatches(profile, catalog)
  {
  }

  /** Matching comes back empty only when the remote list was not used and
      no catalog entry is open to the profile's level. */
  lemma RunMatchingEmptyIff(key: Option<string>, ai: AiOutcome, profile: StudentProfile, catalog: seq<Scholarship>)
    ensures RunMatching(key, ai, profile, catalog) == [] <==>
            !UsesRemote(key, ai) && forall s :: s in catalog ==> !EligibleAt(s, profile.levelOfStudy)
  {
    FallbackEmptyIff(profile, catalog);
  }
}

=== FILE: scenarios.dfy ===
/** End-to-end facts that combine the matcher, the result lookup and the
    form with the shipped catalog. */
module Scenarios {
  import opened Seqs
  import opened Types
  import opened Catalog
  import opened Matching
  import opened Bookmarks
  import opened Submission

  /** When at least five entries are eligible, the fallback lists the
      first five of them and ranks the fifth a Stretch. */
  lemma FallbackOfFirstFive(profile: StudentProfile, catalog: seq<Scholarship>, ids: seq<string>)
    requires Ids(EligibleEntries(catalog, profile.levelOfStudy)) == ids
    requires |ids| >= 5
    ensures |FallbackMatches(profile, catalog)| == 5
    ensures MatchIds(FallbackMatches(profile, catalog)) == ids[..5]
    ensures FallbackMatches(profile, catalog)[4].priority == Stretch
  {
    var eligible := EligibleEntries(catalog, profile.levelOfStudy);
    assert Ids(eligible[..5]) == ids[..5];
    FallbackEntry(profile, catalog, 4);
  }

  /** An Undergraduate profile gets catalog entries 1, 2, 4, 5 and 7 from
      the fallback, in that order. */
  lemma FallbackForUndergraduate(profile: StudentProfile)
    requires profile.levelOfStudy == Undergraduate
    ensures MatchIds(FallbackMatches(profile, Scholarships)) == ["1", "2", "4", "5", "7"]
  {
    var ids := ["1", "2", "4", "5", "7", "9", "10"];
    UndergraduateIds();
    FallbackOfFirstFive(profile, Scholarships, ids);
    assert ids[..5] == ["1", "2", "4", "5", "7"];
  }

  /** A Masters profile gets all five Masters entries, 3, 4, 6, 8 and 9, and
      the last of them, entry 9, is a Stretch. */
  lemma FallbackForMasters(profile: StudentProfile)
    requires profile.levelOfStudy == Masters
    ensures MatchIds(FallbackMatches(profile, Scholarships)) == ["3", "4", "6", "8", "9"]
    ensures FallbackMatches(profile, Scholarships)[4].priority == Stretch
  {
    var ids := ["3", "4", "6", "8", "9"];
    MastersIds();
    FallbackOfFirstFive(profile, Scholarships, ids);
    assert ids[..5] == ids;
  }

  /** A Secondary profile gets nothing from the fallback. */
  lemma FallbackForSecondary(profile: StudentProfile)
    requires profile.levelOfStudy == Secondary
    ensures FallbackMatches(profile, Scholarships) == []
  {
    NoSecondaryEntries();
  }

  /** The subject named in the reason for a submitted profile: the course
      typed in the form, else the previous profile's course, else
      "academic". The field of study never decides it, because the form
      copies the same course value into both. */
  lemma SubmittedSubject(form: FormValues, previous: Option<StudentProfile>)
    ensures var course := OrElse(form.courseOfStudy, PreviousCourse(previous));
      Subject(SubmitProfile(form, previous)) == (if course != "" then course else "academic")
  {
  }

  /** Submitting the form without a usable key always shows entries 1, 2,
      4, 5 and 7, whatever was typed. */
  lemma SubmittedProfileWithoutKey(form: FormValues, previous: Option<StudentProfile>,
                                   key: Option<string>, ai: AiOutcome)
    requires !KeyConfigured(key)
    ensures MatchIds(RunMatching(key, ai, SubmitProfile(form, previous), Scholarships)) ==
            ["1", "2", "4", "5", "7"]
  {
    FallbackForUndergraduate(SubmitProfile(form, previous));
  }

  /** With unique identifiers nothing the fallback produces is dropped on
      display, and each result is shown with the entry it was made from. */
  lemma FallbackFullyDisplayed(profile: StudentProfile, catalog: seq<Scholarship>)
    requires UniqueIds(catalog)
    ensures var f := FallbackMatches(profile, catalog);
      var shown := MatchedScholarships(f, catalog);
      && MatchInfos(shown) == f
      && forall k :: 0 <= k < |shown| ==>
           shown[k].scholarship == EligibleEntries(catalog, profile.levelOfStudy)[k]
  {
    var f := FallbackMatches(profile, catalog);
    var eligible := EligibleEntries(catalog, profile.levelOfStudy);
    forall k | 0 <= k < |f|
      ensures FindById(catalog, f[k].scholarshipId) == Some(eligible[k])
    {
      FallbackEntry(profile, catalog, k);
      var i :| 0 <= i < |catalog| && catalog[i] == eligible[k];
      FindByIdUnique(catalog, i);
    }
    FilterAllKept(f, ResolvablePredicate(catalog));
  }

  /** The catalog's fallback results are all displayed. */
  lemma CatalogFallbackFullyDisplayed(profile: StudentProfile)
    ensures MatchInfos(MatchedScholarships(FallbackMatches(profile, Scholarships), Scholarships)) ==
            FallbackMatches(profile, Scholarships)
  {
    CatalogIdsUnique();
    FallbackFullyDisplayed(profile, Scholarships);
  }

  /** In a list numbered "1" to "10", identifier "99" is not found and
      identifier "3" finds the third entry. */
  lemma LookupsInNumbered(xs: seq<Scholarship>)
    requires Ids(xs) == ["1", "2", "3", "4", "5", "6", "7", "8", "9", "10"]
    ensures FindById(xs, "99") == None
    ensures FindById(xs, "3") == Some(xs[2])
  {
    var ids := Ids(xs);
    assert forall i :: 0 <= i < |xs| ==> xs[i].id == ids[i];
    FindByIdFirst(xs, "3", 2);
  }

  /** A remote list naming an unknown identifier is passed through by
      matching, and the unknown entry is then dropped on display while the
      rest is kept. */
  lemma RemoteUnknownIdDropped(key: Option<string>, profile: StudentProfile, unknown: MatchResult, known: MatchResult)
    requires KeyConfigured(key)
    requires unknown.scholarshipId == "99"
    requires known.scholarshipId == "3"
    ensures RunMatching(key, Returned([unknown, known]), profile, Scholarships) == [unknown, known]
    ensures MatchInfos(MatchedScholarships([unknown, known], Scholarships)) == [known]
    ensures MatchedScholarships([unknown, known], Scholarships)[0].scholarship == Entry3
  {
    CatalogIdsInOrder();
    LookupsInNumbered(Scholarships);
    assert Scholarships[2] == Entry3;
    FilterSecondOfTwo(unknown, known, ResolvablePredicate(Scholarships));
  }
}

=== FILE: scholarship_card.dfy ===
/** The two rules of the scholarship card: the deadline line turns red
    when the deadline is 1 to 30 days away, and the level line lists the
    eligible levels separated by ", ". */
module ScholarshipCard {
  import opened Seqs
  import opened Text
  import opened Types
  import opened Days
  import DeadlineBoard

  /** A deadline this many days away or closer is highlighted on the card. */
  const CardUrgentDays: int := 30

  /** `isUrgent`: the day count lies in 1..30. */
  predicate IsUrgent(deadlineMs: int, nowMs: int) {
    0 < DiffDays(deadlineMs, nowMs) <= CardUrgentDays
  }

  /** The card's window in terms of instants: highlighted iff the deadline
      is still ahead and at most thirty days away. A deadline that is now or
      past is never highlighted. */
  lemma IsUrgentWindow(deadlineMs: int, nowMs: int)
    ensures IsUrgent(deadlineMs, nowMs) <==> nowMs < deadlineMs <= nowMs + CardUrgentDays * MsPerDay
  {
    DiffDaysSign(deadlineMs, nowMs);
  }

  /** Day 30 is still highlighted, day 31 is not. */
  lemma IsUrgentEdges(nowMs: int)
    ensures IsUrgent(nowMs + 30 * MsPerDay, nowMs)
    ensures !IsUrgent(nowMs + 30 * MsPerDay + 1, nowMs)
    ensures !IsUrgent(nowMs, nowMs)
  {
    DiffDaysUnique(nowMs + 30 * MsPerDay, nowMs, 30);
    DiffDaysUnique(nowMs + 30 * MsPerDay + 1, nowMs, 31);
    DiffDaysUnique(nowMs, nowMs, 0);
  }

  /** Everything the deadline view calls urgent is highlighted on the card;
      the card's window is wider (up to 30 days instead of 14). */
  lemma BoardUrgentIsCardUrgent(deadlineMs: int, nowMs: int)
    requires DeadlineBoard.BucketOf(DiffDays(deadlineMs, nowMs)) == DeadlineBoard.Urgent
    ensures IsUrgent(deadlineMs, nowMs)
  {
  }

  /** `eligibleLevel.join(', ')`. */
  function LevelLine(levels: seq<StudyLevel>): (line: string)
    ensures |levels| == 0 <==> line == ""
  {
    Join(LevelNames(levels), ", ")
  }

  /** The level texts, in order. */
  function LevelNames(levels: seq<StudyLevel>): (names: seq<string>)
    ensures |names| == |levels|
    ensures forall i :: 0 <= i < |levels| ==> names[i] == LevelName(levels[i])
  {
    seq(|levels|, i requires 0 <= i < |levels| => LevelName(levels[i]))
  }

  /** Reads levels back from their texts; None if any text is not a level. */
  function ParseLevels(names: seq<string>): (r: Option<seq<StudyLevel>>)
    ensures r.Some? ==> |r.value| == |names|
    decreases |names|
  {
    if |names| == 0 then Some([])
    else match (ParseLevel(names[0]), ParseLevels(names[1..]))
      case (Some(l), Some(rest)) => Some([l] + rest)
      case _ => None
  }

  lemma {:induction false} ParseLevelNames(levels: seq<StudyLevel>)
    ensures ParseLevels(LevelNames(levels)) == Some(levels)
    decreases |levels|
  {
    if |levels| > 0 {
      assert LevelNames(levels)[1..] == LevelNames(levels[1..]);
      ParseLevelNames(levels[1..]);
      assert levels == [levels[0]] + levels[1..];
    }
  }

  /** The level line loses nothing: splitting it at the separators and
      reading each item back gives the levels in their original order. */
  lemma LevelLineRoundTrip(levels: seq<StudyLevel>)
    requires |levels| > 0
    ensures ParseLevels(SplitList(LevelLine(levels))) == Some(levels)
  {
    var names := LevelNames(levels);
    forall i | 0 <= i < |names| ensures NoComma(names[i]) {
      assert names[i] == LevelName(levels[i]);
    }
    SplitJoin(names);
    ParseLevelNames(levels);
  }
}

=== FILE: seqs.dfy ===
/** Generic helpers shared by the whole model: an Option type for the
    TypeScript `undefined`/`null` cases and the order-preserving filter
    that stands in for `Array.prototype.filter`. */
module Seqs {

  /** A value that may be absent (`undefined` or `null` in the program). */
  datatype Option<+T> = None | Some(value: T)

  /** Keeps, in order, the elements of `s` that satisfy `p`. */
  function Filter<T(!new)>(s: seq<T>, p: T -> bool): (r: seq<T>)
    ensures |r| <= |s|
    ensures forall i :: 0 <= i < |r| ==> p(r[i])
    decreases |s|
  {
    if s == [] then []
    else if p(s[0]) then [s[0]] + Filter(s[1..], p)
    else Filter(s[1..], p)
  }

  /** Filter keeps every occurrence of a satisfying element and no
      occurrence of any other. */
  lemma {:induction false} FilterCount<T(!new)>(s: seq<T>, p: T -> bool, x: T)
    ensures multiset(Filter(s, p))[x] == (if p(x) then multiset(s)[x] else 0)
    decreases |s|
  {
    if s != [] {
      FilterCount(s[1..], p, x);
      assert s == [s[0]] + s[1..];
    }
  }

  /** Membership form of FilterCount: an element is kept iff it occurs in
      the input and satisfies the predicate. */
  lemma FilterMembership<T(!new)>(s: seq<T>, p: T -> bool, x: T)
    ensures x in Filter(s, p) <==> x in s && p(x)
  {
    FilterCount(s, p, x);
    assert x in Filter(s, p) <==> multiset(Filter(s, p))[x] > 0;
    assert x in s <==> multiset(s)[x] > 0;
  }

  /** Filtering distributes over concatenation; this is what "in input order" means. */
  lemma {:induction false} FilterConcat<T(!new)>(a: seq<T>, b: seq<T>, p: T -> bool)
    ensures Filter(a + b, p) == Filter(a, p) + Filter(b, p)
    decreases |a|
  {
    if a == [] {
      assert a + b == b;
    } else {
      assert (a + b)[1..] == a[1..] + b;
      assert (a + b)[0] == a[0];
      FilterConcat(a[1..], b, p);
    }
  }

  /** Filtering twice with the same predicate changes nothing more. */
  lemma {:induction false} FilterIdempotent<T(!new)>(s: seq<T>, p: T -> bool)
    ensures Filter(Filter(s, p), p) == Filter(s, p)
    decreases |s|
  {
    if s != [] {
      FilterIdempotent(s[1..], p);
      if p(s[0]) {
        var r := Filter(s, p);
        assert r[0] == s[0] && r[1..] == Filter(s[1..], p);
      }
    }
  }

  /** A filter whose predicate holds everywhere returns its input unchanged. */
  lemma {:induction false} FilterAllKept<T(!new)>(s: seq<T>, p: T -> bool)
    requires forall i :: 0 <= i < |s| ==> p(s[i])
    ensures Filter(s, p) == s
    decreases |s|
  {
    if s != [] {
      FilterAllKept(s[1..], p);
      assert s == [s[0]] + s[1..];
    }
  }

  /** A filter whose predicate holds nowhere returns nothing. */
  lemma {:induction false} FilterNoneKept<T(!new)>(s: seq<T>, p: T -> bool)
    requires forall i :: 0 <= i < |s| ==> !p(s[i])
    ensures Filter(s, p) == []
    decreases |s|
  {
    if s != [] {
      FilterNoneKept(s[1..], p);
    }
  }

  /** Rewriting rule used to evaluate a filter over a list written element by element. */
  lemma FilterCons<T(!new)>(x: T, s: seq<T>, p: T -> bool)
    ensures Filter([x] + s, p) == (if p(x) then [x] else []) + Filter(s, p)
  {
    assert ([x] + s)[1..] == s;
    assert ([x] + s)[0] == x;
  }

  /** Of two elements, a filter that rejects the first and keeps the second returns the second alone. */
  lemma FilterSecondOfTwo<T(!new)>(x: T, y: T, p: T -> bool)
    requires !p(x) && p(y)
    ensures Filter([x, y], p) == [y]
  {
    FilterCons(x, [y], p);
    FilterCons(y, [], p);
    assert [x] + [y] == [x, y];
  }

  /** One step of Filter on the suffix starting at `k`. */
  lemma FilterAt<T(!new)>(s: seq<T>, k: nat, p: T -> bool)
    requires k < |s|
    ensures Filter(s[k..], p) == (if p(s[k]) then [s[k]] else []) + Filter(s[k + 1..], p)
  {
    assert s[k..][1..] == s[k + 1..];
  }

  /** One step of reading a filter off from the back: a kept element. */
  lemma FilterKeep<T(!new)>(s: seq<T>, k: nat, p: T -> bool, tail: seq<T>)
    requires k < |s| && p(s[k])
    requires Filter(s[k + 1..], p) == tail
    ensures Filter(s[k..], p) == [s[k]] + tail
  {
    FilterAt(s, k, p);
  }

  /** One step of reading a filter off from the back: a dropped element. */
  lemma FilterSkip<T(!new)>(s: seq<T>, k: nat, p: T -> bool, tail: seq<T>)
    requires k < |s| && !p(s[k])
    requires Filter(s[k + 1..], p) == tail
    ensures Filter(s[k..], p) == tail
  {
    FilterAt(s, k, p);
  }

  /** The smaller of two integers, as `Array.prototype.slice(0, n)` clips its end. */
  function Min(a: int, b: int): (m: int)
    ensures m <= a && m <= b
    ensures m == a || m == b
  {
    if a <= b then a else b
  }
}

=== FILE: sorting.dfy ===
/** Ascending sort by an integer key, standing in for
    `Array.prototype.sort` with the comparator `(a, b) => key(a) - key(b)`.
    The insertion places an element before the first one whose key is not
    smaller, so elements with equal keys keep their input order, as the
    built-in (stable) sort does. */
module Sorting {

  /** Keys never decrease along `s`. */
  predicate SortedBy<T>(s: seq<T>, key: T -> int) {
    forall i, j :: 0 <= i < j < |s| ==> key(s[i]) <= key(s[j])
  }

  /** Puts `h` in front of a sorted sequence whose keys are all at least `key(h)`. */
  lemma SortedCons<T>(h: T, t: seq<T>, key: T -> int)
    requires SortedBy(t, key)
    requires forall j :: 0 <= j < |t| ==> key(h) <= key(t[j])
    ensures SortedBy([h] + t, key)
  {
    forall i, j | 0 <= i < j < |[h] + t| ensures key(([h] + t)[i]) <= key(([h] + t)[j]) {
      if i > 0 {
        assert ([h] + t)[i] == t[i - 1];
      }
      assert ([h] + t)[j] == t[j - 1];
    }
  }

  /** The head of a sorted sequence bounds `x`, when `x` is larger, and
      everything drawn from the tail. */
  lemma HeadBoundsRest<T>(x: T, s: seq<T>, key: T -> int, rest: seq<T>)
    requires SortedBy(s, key) && s != [] && key(s[0]) < key(x)
    requires forall j :: 0 <= j < |rest| ==> rest[j] == x || rest[j] in s[1..]
    ensures forall j :: 0 <= j < |rest| ==> key(s[0]) <= key(rest[j])
  {
    forall j | 0 <= j < |rest| ensures key(s[0]) <= key(rest[j]) {
      if rest[j] != x {
        var k :| 0 <= k < |s[1..]| && s[1..][k] == rest[j];
        assert s[k + 1] == rest[j];
      }
    }
  }

  /** Inserts `x` into a sorted sequence, in front of the first element whose
      key is at least `key(x)`. */
  function Insert<T>(x: T, s: seq<T>, key: T -> int): (r: seq<T>)
    requires SortedBy(s, key)
    ensures SortedBy(r, key)
    ensures multiset(r) == multiset(s) + multiset{x}
    ensures |r| == |s| + 1
    ensures forall j :: 0 <= j < |r| ==> r[j] == x || r[j] in s
    decreases |s|
  {
    if s == [] then [x]
    else if key(x) <= key(s[0]) then
      assert forall j :: 0 <= j < |s| ==> key(x) <= key(s[j]);
      SortedCons(x, s, key);
      [x] + s
    else
      var rest := Insert(x, s[1..], key);
      assert s == [s[0]] + s[1..];
      HeadBoundsRest(x, s, key, rest);
      SortedCons(s[0], rest, key);
      [s[0]] + rest
  }

  /** Sorts by key, keeping the input order among equal keys. */
  function SortByKey<T>(s: seq<T>, key: T -> int): (r: seq<T>)
    ensures SortedBy(r, key)
    ensures multiset(r) == multiset(s)
    ensures |r| == |s|
    decreases |s|
  {
    if s == [] then []
    else
      assert s == [s[0]] + s[1..];
      Insert(s[0], SortByKey(s[1..], key), key)
  }

  /** A sequence that is already sorted comes back unchanged. */
  lemma {:induction false} SortSorted<T>(s: seq<T>, key: T -> int)
    requires SortedBy(s, key)
    ensures SortByKey(s, key) == s
    decreases |s|
  {
    if s != [] {
      assert SortedBy(s[1..], key);
      SortSorted(s[1..], key);
      assert s[1..] == [] || key(s[0]) <= key(s[1..][0]);
    }
  }
}

=== FILE: submission.dfy ===
/** The profile form's submit handler, reduced to the fields that matching
    and reminders read. Each field takes the submitted value when it is a
    non-empty string, else the previous profile's value, else the empty
    string; the study level is always Undergraduate. */
module Submission {
  import opened Seqs
  import opened Types

  /** The submitted form values the model reads (`FormData.get` yields no
      value for a missing field). */
  datatype FormValues = FormValues(
    mobileNumber: Option<string>,
    courseOfStudy: Option<string>,
    currentCgpa: Option<string>
  )

  /** `value || fallback` for a form value: a missing or empty value gives way. */
  function OrElse(value: Option<string>, fallback: string): (r: string)
    ensures value.Some? && value.value != "" ==> r == value.value
    ensures !(value.Some? && value.value != "") ==> r == fallback
  {
    if value.Some? && value.value != "" then value.value else fallback
  }

  /** A field of the previous profile's undergraduate section, empty when
      there is no previous profile or no such section. */
  function PreviousCourse(previous: Option<StudentProfile>): string {
    if previous.Some? && previous.value.undergraduateDetails.Some?
    then previous.value.undergraduateDetails.value.courseOfStudy else ""
  }

  function PreviousCgpa(previous: Option<StudentProfile>): string {
    if previous.Some? && previous.value.undergraduateDetails.Some?
    then previous.value.undergraduateDetails.value.currentCgpa else ""
  }

  /** The profile handed to matching on submit. */
  function SubmitProfile(form: FormValues, previous: Option<StudentProfile>): (p: StudentProfile)
    ensures p.levelOfStudy == Undergraduate
    ensures p.undergraduateDetails.Some?
    ensures p.undergraduateDetails.value.courseOfStudy ==
            OrElse(form.courseOfStudy, PreviousCourse(previous))
    ensures p.undergraduateDetails.value.currentCgpa ==
            OrElse(form.currentCgpa, PreviousCgpa(previous))
    ensures p.fieldOfStudy == OrElse(form.courseOfStudy, "")
    ensures p.phoneNumber == OrElse(form.mobileNumber, "")
  {
    StudentProfile(
      Undergraduate,
      OrElse(form.courseOfStudy, ""),
      OrElse(form.mobileNumber, ""),
      Some(UndergraduateDetails(
        OrElse(form.courseOfStudy, PreviousCourse(previous)),
        OrElse(form.currentCgpa, PreviousCgpa(previous))))
    )
  }
}

=== FILE: text.dfy ===
/** Character and string helpers: ASCII digits (the complement of the
    regular-expression class `\D`), substring occurrence, and the
    `Array.prototype.join` rule with a matching splitter. */
module Text {

  /** The characters `0`-`9`; JavaScript's `\D` matches every other character. */
  predicate IsDigit(c: char) {
    '0' <= c <= '9'
  }

  predicate AllDigits(s: string) {
    forall i :: 0 <= i < |s| ==> IsDigit(s[i])
  }

  /** `t` occurs in `s` starting at index `i`. */
  predicate InfixAt(t: string, s: string, i: int) {
    0 <= i && i + |t| <= |s| && s[i..i + |t|] == t
  }

  /** `t` occurs somewhere in `s`. */
  predicate IsInfix(t: string, s: string) {
    exists i | 0 <= i <= |s| :: InfixAt(t, s, i)
  }

  /** A string placed between two others occurs in the concatenation. */
  lemma InfixOfConcat(a: string, t: string, b: string)
    ensures InfixAt(t, a + t + b, |a|)
    ensures IsInfix(t, a + t + b)
  {
    assert (a + t + b)[|a|..|a| + |t|] == t;
    assert InfixAt(t, a + t + b, |a|);
  }

  /** Where each part of a seven-part concatenation sits. */
  lemma TemplateParts(a: string, b: string, c: string, d: string, e: string, f: string, g: string)
    ensures var r := a + b + c + d + e + f + g;
      && |r| == |a| + |b| + |c| + |d| + |e| + |f| + |g|
      && r[..|a|] == a
      && InfixAt(b, r, |a|)
      && InfixAt(d, r, |a| + |b| + |c|)
      && InfixAt(f, r, |a| + |b| + |c| + |d| + |e|)
  {
    var r := a + b + c + d + e + f + g;
    assert r == a + b + (c + d + e + f + g);
    InfixOfConcat(a, b, c + d + e + f + g);
    assert r == (a + b + c) + d + (e + f + g);
    InfixOfConcat(a + b + c, d, e + f + g);
    assert r == (a + b + c + d + e) + f + g;
    InfixOfConcat(a + b + c + d + e, f, g);
  }

  /** `parts.join(sep)`: the parts in order with `sep` between neighbours. */
  function Join(parts: seq<string>, sep: string): (r: string)
    ensures |parts| == 0 ==> r == ""
    ensures |parts| > 0 ==> |r| == SumLengths(parts) + (|parts| - 1) * |sep|
    ensures |parts| > 0 ==> r[..|parts[0]|] == parts[0]
    decreases |parts|
  {
    if |parts| == 0 then ""
    else if |parts| == 1 then parts[0]
    else parts[0] + sep + Join(parts[1..], sep)
  }

  function SumLengths(parts: seq<string>): nat
    decreases |parts|
  {
    if |parts| == 0 then 0 else |parts[0]| + SumLengths(parts[1..])
  }

  /** Index of the first `c` in `s`, or `|s|` when there is none. */
  function IndexOf(s: string, c: char): (k: nat)
    ensures k <= |s|
    ensures k < |s| ==> s[k] == c
    ensures forall j :: 0 <= j < k ==> s[j] != c
    decreases |s|
  {
    if |s| == 0 then 0
    else if s[0] == c then 0
    else 1 + IndexOf(s[1..], c)
  }

  /** Splits a `", "`-separated list back into its items: cut at each comma
      and drop the one character that follows it. */
  function SplitList(s: string): (r: seq<string>)
    ensures |r| >= 1
    decreases |s|
  {
    var k := IndexOf(s, ',');
    if k == |s| then [s]
    else [s[..k]] + SplitList(s[if k + 2 <= |s| then k + 2 else |s|..])
  }

  predicate NoComma(s: string) {
    forall i :: 0 <= i < |s| ==> s[i] != ','
  }

  /** Joining with `", "` and splitting again gives back the items, as long
      as there is at least one and none contains a comma. */
  lemma {:induction false} SplitJoin(parts: seq<string>)
    requires |parts| >= 1
    requires forall i :: 0 <= i < |parts| ==> NoComma(parts[i])
    ensures SplitList(Join(parts, ", ")) == parts
    decreases |parts|
  {
    var p := parts[0];
    if |parts| == 1 {
      assert IndexOf(p, ',') == |p|;
    } else {
      var rest := Join(parts[1..], ", ");
      var s := p + ", " + rest;
      assert s == Join(parts, ", ");
      assert s[|p|] == ',';
      assert forall j :: 0 <= j < |p| ==> s[j] == p[j];
      assert IndexOf(s, ',') == |p|;
      assert s[..|p|] == p;
      assert s[|p| + 2..] == rest;
      SplitJoin(parts[1..]);
      assert parts == [p] + parts[1..];
    }
  }
}

=== FILE: types.dfy ===
/** The records of the scholarship domain: study levels, the parts of a
    student profile that the matching and reminder rules read, catalog
    entries and match results. */
module Types {
  import opened Seqs

  /** The closed set of study levels. */
  datatype StudyLevel = Secondary | Undergraduate | Masters

  /** The text the program uses for each level. */
  function LevelName(l: StudyLevel): (name: string)
    ensures |name| > 0
  {
    match l
    case Secondary => "Secondary"
    case Undergraduate => "Undergraduate"
    case Masters => "Masters"
  }

  /** Reads a level back from its text; anything else is not a level. */
  function ParseLevel(name: string): (l: Option<StudyLevel>)
    ensures l.Some? ==> LevelName(l.value) == name
  {
    if name == "Secondary" then Some(Secondary)
    else if name == "Undergraduate" then Some(Undergraduate)
    else if name == "Masters" then Some(Masters)
    else None
  }

  /** The priority tier of a match, a closed set. */
  datatype Priority = HighFit | ModerateFit | Stretch

  /** The tier's text, one of the three strings of the result type. */
  function PriorityLabel(p: Priority): (l: string)
    ensures l == "High Fit" || l == "Moderate Fit" || l == "Stretch"
  {
    match p
    case HighFit => "High Fit"
    case ModerateFit => "Moderate Fit"
    case Stretch => "Stretch"
  }

  /** Distinct tiers have distinct texts, so a label names its tier. */
  lemma PriorityLabelInjective(p: Priority, q: Priority)
    ensures PriorityLabel(p) == PriorityLabel(q) <==> p == q
  {
  }

  /** The undergraduate section of the profile, reduced to the two fields
      the matcher reads. */
  datatype UndergraduateDetails = UndergraduateDetails(courseOfStudy: string, currentCgpa: string)

  /** A student profile, reduced to the fields the matcher and the reminder
      read. The undergraduate section may be missing (the program reads it
      with optional chaining). */
  datatype StudentProfile = StudentProfile(
    levelOfStudy: StudyLevel,
    fieldOfStudy: string,
    phoneNumber: string,
    undergraduateDetails: Option<UndergraduateDetails>
  )

  /** One catalog entry. */
  datatype Scholarship = Scholarship(
    id: string,
    name: string,
    sponsor: string,
    location: string,
    eligibleLevel: seq<StudyLevel>,
    deadline: string,
    description: string,
    fullDescription: string,
    eligibility: seq<string>,
    documents: seq<string>,
    applicationLink: string
  )

  /** The outcome of matching for one scholarship. */
  datatype MatchResult = MatchResult(
    scholarshipId: string,
    matchPercentage: int,
    reason: string,
    priority: Priority
  )

  /** The identifiers of a list of entries, in order. */
  function Ids(s: seq<Scholarship>): (ids: seq<string>)
    ensures |ids| == |s|
    ensures forall i :: 0 <= i < |s| ==> ids[i] == s[i].id
  {
    seq(|s|, i requires 0 <= i < |s| => s[i].id)
  }

  /** The identifiers a list of match results refers to, in order. */
  function MatchIds(m: seq<MatchResult>): (ids: seq<string>)
    ensures |ids| == |m|
    ensures forall i :: 0 <= i < |m| ==> ids[i] == m[i].scholarshipId
  {
    seq(|m|, i requires 0 <= i < |m| => m[i].scholarshipId)
  }

  /** Every entry has a distinct identifier. */
  predicate UniqueIds(s: seq<Scholarship>) {
    forall i, j :: 0 <= i < j < |s| ==> s[i].id != s[j].id
  }

  /** The entry is open to students at `level`. */
  predicate EligibleAt(s: Scholarship, level: StudyLevel) {
    level in s.eligibleLevel
  }

  /** `EligibleAt` as a value, so that every filter by level uses the same predicate. */
  function LevelPredicate(level: StudyLevel): Scholarship -> bool {
    s => EligibleAt(s, level)
  }

  /** `catalog.filter(s => s.eligibleLevel.includes(level))`. */
  function EligibleEntries(catalog: seq<Scholarship>, level: StudyLevel): (r: seq<Scholarship>)
    ensures |r| <= |catalog|
    ensures forall i :: 0 <= i < |r| ==> EligibleAt(r[i], level) && r[i] in catalog
    ensures forall s :: s in catalog && EligibleAt(s, level) ==> s in r
  {
    var r := Filter(catalog, LevelPredicate(level));
    forall s | s in catalog && EligibleAt(s, level) ensures s in r {
      FilterMembership(catalog, LevelPredicate(level), s);
    }
    forall i | 0 <= i < |r| ensures r[i] in catalog {
      FilterMembership(catalog, LevelPredicate(level), r[i]);
    }
    r
  }
}
